=== FILE: README.md ===
# Azure infrastructure assistant — a Dafny model of the query pipeline

The assistant answers plain-language questions about an Azure subscription. A
question goes through four stages:

1. **Analysis.** The language model reads the question and returns a JSON
   analysis: intent, resource type, resource name and parameters. The JSON may
   come wrapped in Markdown code fences.
2. **Resource query.** `executeAzureQuery` routes the analysis to one handler:
   - list-all;
   - the cost placeholder;
   - virtual machines, databases, virtual networks, subnets, storage accounts
     or resource groups;
   - a generic lookup for every other type.

   The virtual-machine, database, virtual-network, subnet, storage-account,
   generic and list-all handlers search the resolved resource groups in order
   (explicit, configured or enumerated). The resource-group lookup reads the
   named group directly and the cost placeholder searches nothing; neither
   consults the resolved groups. Every handler answers `{ data, source? }` or
   `{ error }`.
3. **Phrasing.** `generateResponse` asks the model to phrase the data. It
   falls back to a fixed plain-text layout (`formatBasicResponse`) when it
   cannot.
4. **Prompts.** `loadPrompt` supplies the system prompts. It fills `{key}`
   placeholders the way a global `String.prototype.replace` does.

The model is functional. Azure, the file system and the language model become
values:
- a `Directory` of resource groups, each holding what its listings delivered
  and an optional trailing error;
- a prompt store, a `map` from prompt name to template;
- a `Model` function from request to completion;
- a `Parser` standing for `JSON.parse`.

JavaScript behaviour the code relies on is written out: truthiness, `String(v)`,
`trim`'s white-space set, `toLowerCase` on ASCII, `includes`, `split`/`join`,
`JSON.stringify` with and without indentation, and the `$` patterns of a
replacement string.

Modules, one per concern:
- `Wrappers`: `Option` and `Result`.
- `Strings`: the JavaScript string operations.
- `Json`: values, `String(v)` and `JSON.stringify`.
- `Search`: the first-match search and the group scan every handler shares.
- `Cloud`: the resource directory and its `get`/`list` calls.
- `Intents`: the analysis record.
- `ResourceClient`: the handlers and the dispatch (`backend/azureResourceClient.js`).
- `ResourceClientProperties`: what the handlers answer for a given directory.
- `PromptLoader`: `backend/promptLoader.js`.
- `LanguageModel`: the chat-completion call.
- `QueryAnalyzer`: `backend/queryAnalyzer.js`.
- `BasicFormat`: the plain-text layout.
- `QueryHandler`: the rest of `backend/azureQueryHandler.js`.

## Model

| member | source | states |
|---|---|---|
| Strings.Trim | backend/queryAnalyzer.js:47 | `trim` removes exactly the white space at both ends: the result is the slice of the text between them, and neither of its ends is white space |
| Strings.TrimIdempotent | backend/queryAnalyzer.js:36-47 | trimming the already-trimmed reply again changes nothing |
| Strings.TrimDropsTrailingSpace | backend/azureQueryHandler.js:87 | white space appended to a reply disappears under `trim` |
| Strings.SplitJoin | backend/azureResourceClient.js:434 | the pieces of `split(',')` joined with the separator give back the configured list |
| Strings.SplitPiecesClean | backend/azureResourceClient.js:434 | no piece of a split holds the separator |
| Strings.SplitCharCount | backend/azureResourceClient.js:434 | a list with n commas names n + 1 groups |
| Strings.NatToString | backend/azureQueryHandler.js:117 | item counts print as decimal digits without leading zeros |
| Strings.NatToStringValue | backend/azureQueryHandler.js:117 | the printed digits denote the count printed |
| Strings.IntToString | backend/azureQueryHandler.js:126 | `String(n)` of an integer starts with a minus sign exactly when it is negative |
| Strings.IntToStringValue | backend/azureQueryHandler.js:126 | `String(n)` prints a non-negative integer as its digits, and a negative one as a minus sign and the digits of its magnitude |
| Json.EscapeChar | backend/azureQueryHandler.js:120 | `JSON.stringify` escapes exactly quotes, backslashes and control characters, and never emits a raw line feed for anything else |
| Json.EscapeRoundTrip | backend/azureQueryHandler.js:120 | JSON string escaping is undone by JSON string unescaping, for every string |
| Json.CompactHasNoNewline | backend/azureQueryHandler.js:120 | compact `JSON.stringify` output never contains a line feed |
| Json.Stringify | backend/azureQueryHandler.js:72 | `JSON.stringify` gives no text exactly for `undefined` |
| Json.Text | backend/azureQueryHandler.js:114 | `String(v)` prints a string as itself, a number in decimal, a boolean as `true` or `false`, `undefined`, `null`, and `[object Object]` for an object |
| Json.ArrayTextJoins | backend/azureQueryHandler.js:114 | `String` of an array joins its items' texts with commas, nullish items printing as nothing |
| Json.Serialize | backend/azureQueryHandler.js:72 | `JSON.stringify` writes nullish values as `null`, numbers in decimal, booleans as `true` or `false`, strings quoted so that unescaping gives the string back, arrays in brackets and objects in braces |
| Json.Entries | backend/azureQueryHandler.js:109 | `Object.entries` gives an object's fields in order; for an array, one entry per item keyed by its index; for a string, one entry per character keyed by its index; nothing for other scalars |
| Search.FindFirst | backend/azureResourceClient.js:145 | the index of the first element satisfying the test, or the length when none does |
| Search.Scan | backend/azureResourceClient.js:74-121 | the group loop stops at the first group that yields the entity or rethrows, and skips 404s |
| Search.ScanTakes | backend/azureResourceClient.js:74-115 | after groups that skip, the first group that yields is the answer |
| Search.ScanStops | backend/azureResourceClient.js:117-120 | after groups that skip, the first group that rethrows ends the search with its error |
| Search.ScanSkipsAll | backend/azureResourceClient.js:121-123 | when every group skips, the search is exhausted |
| Cloud.GetGroup | backend/azureResourceClient.js:299 | a group lookup returns the group of that exact name, or a 404 error when there is none |
| ResourceClient.ConfiguredGroups | backend/azureResourceClient.js:433-435 | the configured list gives one trimmed name per comma-separated piece |
| ResourceClient.ResolveGroups | backend/azureResourceClient.js:427-446 | an explicit group wins, then the configured list, then the enumeration, whose failure is the error |
| ResourceClient.Locate | backend/azureResourceClient.js:70-128 | a resolution failure is reported with the handler's prefix, a record carries no source, and any other error is the not-found message or prefixed |
| ResourceClient.GetStep | backend/azureResourceClient.js:117-119 | a `get` that succeeds is taken, a 404 is skipped, and any other error is rethrown |
| ResourceClient.PowerState | backend/azureResourceClient.js:83 | the display status of the first `PowerState/` status, or `Unknown` when there is none or it is empty |
| ResourceClient.ShapeVirtualMachine | backend/azureResourceClient.js:78-115 | the status, configuration and full records have their keys in source order, and each key holds the machine's value for it: name, group, power state and the pass-through properties |
| ResourceClient.VirtualMachineMissing | backend/azureResourceClient.js:123 | the not-found message names the machine |
| ResourceClient.QueryVirtualMachine | backend/azureResourceClient.js:70-128 | a resolution failure is `Failed to query VM: ` and its message; a record carries no source; any other error is the not-found message or prefixed |
| ResourceClient.FindDatabase | backend/azureResourceClient.js:138-160 | the first server, in listing order, that lists a database of that name, ignoring case, and the first such database in that server's listing; none exactly when no server holds one |
| ResourceClient.QueryDatabase | backend/azureResourceClient.js:130-177 | a resolution failure is `Failed to query database: ` and its message; once the groups are resolved, the only error is the not-found message |
| ResourceClient.ShapeVirtualNetwork | backend/azureResourceClient.js:187-212 | the subnet breakdown is chosen for the count intent or a name mentioning subnets; each branch has its keys in source order with the network name, group, location and address space passed through, the subnet count 0 when the network has no subnet list, and the subnets mapped in order (name, prefix and IP-configuration count in the breakdown, names otherwise) |
| ResourceClient.QueryVirtualNetwork | backend/azureResourceClient.js:179-225 | a resolution failure is `Failed to query VNet: ` and its message; a record carries no source; any other error is the not-found message or prefixed |
| ResourceClient.MapSubnets | backend/azureResourceClient.js:194-198 | the subnet array is absent without subnets, and otherwise has one entry per subnet, in order |
| ResourceClient.FindNetwork | backend/azureResourceClient.js:236 | the first listed network of that name, ignoring case; none exactly when no network matches |
| ResourceClient.ShapeSubnets | backend/azureResourceClient.js:237-248 | the subnet record's keys, and the network's name, the group, the subnet count and the mapped subnets under them |
| ResourceClient.QuerySubnet | backend/azureResourceClient.js:227-261 | a resolution failure is `Failed to query subnets: ` and its message; once the groups are resolved, the only error is the not-found message |
| ResourceClient.QueryStorageAccount | backend/azureResourceClient.js:263-295 | a resolution failure is `Failed to query storage account: ` and its message; a record carries no source; any other error is the not-found message or prefixed |
| ResourceClient.FindResource | backend/azureResourceClient.js:344-345 | the first listed resource of that name, ignoring case; none exactly when no resource matches |
| ResourceClient.ResourceMissing | backend/azureResourceClient.js:359 | the not-found message names the resource as `String` prints it |
| ResourceClient.QueryGenericResource | backend/azureResourceClient.js:337-364 | a resolution failure is `Failed to query resource: ` and its message; a record carries no source; any other error is the not-found message or prefixed |
| ResourceClient.GroupResourcesRecord | backend/azureResourceClient.js:301-320 | the count is the number of resources, and the list is present only for the listing intent and summarises each resource in order |
| ResourceClient.GroupRecord | backend/azureResourceClient.js:323-330 | the group record has the keys name, location, provisioning state and tags, holding the group's values |
| ResourceClient.QueryResourceGroup | backend/azureResourceClient.js:297-335 | a missing group or a failed enumeration is a prefixed error; the counting intents answer with the resource record, any other intent with the group record |
| ResourceClient.GetCostData | backend/azureResourceClient.js:366-381 | the placeholder always succeeds, echoes the name, and reports the time period or `not specified` |
| ResourceClient.Matching | backend/azureResourceClient.js:392-403 | a group contributes exactly its resources that pass the type filter |
| ResourceClient.MatchingAppend | backend/azureResourceClient.js:392-403 | the filter keeps listing order and every occurrence: filtering a concatenation concatenates the filtered parts |
| ResourceClient.MatchingOne | backend/azureResourceClient.js:394-402 | a single resource is reported, with its group, exactly when it passes the type filter |
| ResourceClient.Collect | backend/azureResourceClient.js:388-408 | list-all reports exactly the delivered, type-matching resources of the searched groups, including those listed before a group's listing failed |
| ResourceClient.ListAllRecord | backend/azureResourceClient.js:410-417 | the record names the type (`all resources` for generic), and its count equals the number of listed resources |
| ResourceClient.ListAllResources | backend/azureResourceClient.js:383-425 | a resolution failure is the only error, prefixed with `Failed to list <type> resources: `; otherwise the answer is the list-all record of the matching resources of the resolved groups, under the default source |
| ResourceClient.TypeHandler | backend/azureResourceClient.js:38-59 | each dedicated type goes to its own handler, and every other type to the generic lookup |
| ResourceClient.Route | backend/azureResourceClient.js:29-38 | list-all needs the `list_all` intent and the name `all`, and wins over the cost intent, which wins over the type |
| ResourceClient.RunTypeHandler | backend/azureResourceClient.js:38-59 | none of the per-type handlers names a source |
| ResourceClient.RunHandler | backend/azureResourceClient.js:29-59 | only the list-all handler names a source, the default one, and the cost placeholder always answers |
| ResourceClient.ExecuteAzureQuery | backend/azureResourceClient.js:24-36 | list-all and cost analyses run those handlers |
| ResourceClientProperties.LocateHit | backend/azureResourceClient.js:74-115 | the first group that yields the entity, after groups that do not, is where the handler answers from |
| ResourceClientProperties.LocateAbort | backend/azureResourceClient.js:117-127 | an error rethrown before any hit fails the handler with its prefix |
| ResourceClientProperties.LocateMiss | backend/azureResourceClient.js:121-123 | when no group yields, the handler answers its not-found message |
| ResourceClientProperties.LocateNeverFails | backend/azureResourceClient.js:162-172 | a handler whose groups never rethrow answers a record or not-found |
| ResourceClientProperties.VirtualMachineFirstMatch | backend/azureResourceClient.js:74-118 | after 404s, the first group holding the machine answers with its shaped record |
| ResourceClientProperties.VirtualMachineAbort | backend/azureResourceClient.js:117-127 | a non-404 error in a group searched before any hit becomes `Failed to query VM: …` |
| ResourceClientProperties.VirtualMachineNotFound | backend/azureResourceClient.js:117-123 | 404 in every group gives the not-found message |
| ResourceClientProperties.VirtualNetworkFirstMatch | backend/azureResourceClient.js:183-214 | after 404s, the first group holding the network answers with its shaped record |
| ResourceClientProperties.VirtualNetworkAbort | backend/azureResourceClient.js:214-224 | a non-404 error becomes `Failed to query VNet: …` |
| ResourceClientProperties.VirtualNetworkNotFound | backend/azureResourceClient.js:214-220 | 404 in every group gives the not-found message |
| ResourceClientProperties.StorageAccountFirstMatch | backend/azureResourceClient.js:267-285 | after 404s, the first group holding the account answers with its record |
| ResourceClientProperties.StorageAccountAbort | backend/azureResourceClient.js:284-294 | a non-404 error becomes `Failed to query storage account: …` |
| ResourceClientProperties.StorageAccountNotFound | backend/azureResourceClient.js:284-290 | 404 in every group gives the not-found message |
| ResourceClientProperties.DatabaseFirstMatch | backend/azureResourceClient.js:138-160 | the first group with a server holding the database answers with that server's database |
| ResourceClientProperties.DatabaseNotFound | backend/azureResourceClient.js:166-172 | no matching database in any group gives the not-found message |
| ResourceClientProperties.DatabaseNeverFails | backend/azureResourceClient.js:162-169 | once the groups are resolved, server and group errors never reach the caller |
| ResourceClientProperties.SubnetFirstMatch | backend/azureResourceClient.js:231-249 | the first group listing the network answers with its subnets |
| ResourceClientProperties.SubnetNotFound | backend/azureResourceClient.js:251-256 | no matching network in any group gives the not-found message |
| ResourceClientProperties.SubnetNeverFails | backend/azureResourceClient.js:251-253 | once the groups are resolved, listing errors never reach the caller |
| ResourceClientProperties.GenericFirstMatch | backend/azureResourceClient.js:341-355 | after groups that list no match and complete, the first group listing one answers with its record |
| ResourceClientProperties.GenericAbort | backend/azureResourceClient.js:341-363 | a listing failure before any match fails the whole lookup |
| ResourceClientProperties.GenericNotFound | backend/azureResourceClient.js:341-359 | no match in any completed listing gives the not-found message |
| ResourceClientProperties.GenericWithoutName | backend/azureResourceClient.js:345 | without a name, the first group that lists anything fails on `undefined.toLowerCase()` |
| ResourceClientProperties.CollectAppend | backend/azureResourceClient.js:388-408 | resources are reported group by group, in search order |
| ResourceClientProperties.MatchingGenericKeepsAll | backend/azureResourceClient.js:394 | the `generic` type keeps every delivered resource, in order |
| ResourceClientProperties.ListAllOneGroup | backend/azureResourceClient.js:383-417 | with an explicit group, list-all reports that group's matching resources |
| ResourceClientProperties.ExecuteVirtualMachine | backend/azureResourceClient.js:39-40 | a virtual-machine analysis runs the VM handler with its name and intent |
| ResourceClientProperties.ExecuteDatabase | backend/azureResourceClient.js:42-43 | a database analysis runs the database handler |
| ResourceClientProperties.ExecuteVirtualNetwork | backend/azureResourceClient.js:45-46 | a virtual-network analysis runs the VNet handler |
| ResourceClientProperties.ExecuteSubnet | backend/azureResourceClient.js:48-49 | a subnet analysis runs the subnet handler |
| ResourceClientProperties.ExecuteStorageAccount | backend/azureResourceClient.js:51-52 | a storage-account analysis runs the storage handler |
| ResourceClientProperties.ExecuteResourceGroup | backend/azureResourceClient.js:54-55 | a resource-group analysis runs the group lookup |
| ResourceClientProperties.ExecuteOtherType | backend/azureResourceClient.js:57-58 | every other type, `generic` included, runs the generic lookup with the possibly absent name |
| PromptLoader.LoadPrompt | backend/promptLoader.js:10-26 | a missing template fails with `Failed to load prompt: <name>`, and a present one is substituted |
| PromptLoader.Expand | backend/promptLoader.js:18 | a replacement without `$` is inserted as it is, and `$&` inserts the match |
| PromptLoader.ReplaceAll | backend/promptLoader.js:18 | a global replace with a value without `$` splits at the placeholder and joins with the value; text without the placeholder, or the value `$&`, leaves the text as it was |
| PromptLoader.Substitute | backend/promptLoader.js:16-19 | a template that mentions none of the keys comes back unchanged |
| PromptLoader.SubstituteAppend | backend/promptLoader.js:16-19 | the variables apply in order: substituting a concatenated list is substituting the first part, then the second |
| PromptLoader.LoadOneVariable | backend/promptLoader.js:10-21 | with one variable, every placeholder becomes the value and nothing else changes |
| PromptLoader.SubstituteChains | backend/promptLoader.js:16-19 | a value may bring a placeholder that a later variable fills: a placeholder for `a` mapped to one for `b`, then `b` to `x`, gives `x` |
| PromptLoader.DollarAmpersandKeepsText | backend/promptLoader.js:18 | a value of `$&` writes every match back, leaving the text unchanged |
| QueryAnalyzer.Interpret | backend/queryAnalyzer.js:55-67 | null and non-objects fail; missing intent or type fails; parameters default to empty; a missing name becomes `unknown` except for the generic type |
| QueryAnalyzer.StripAll | backend/queryAnalyzer.js:47 | removing a fence pattern never lengthens the text, and text without the pattern is unchanged |
| QueryAnalyzer.CleanFences | backend/queryAnalyzer.js:47 | text without backticks is only trimmed |
| QueryAnalyzer.ReplyText | backend/queryAnalyzer.js:36-41 | the reply text is present exactly when the content is present and not blank, and is then the trimmed content |
| QueryAnalyzer.Decode | backend/queryAnalyzer.js:44-53 | a parse failure is `Failed to parse query analysis: ` and the parser's message; a decoded analysis is well-formed |
| QueryAnalyzer.Read | backend/queryAnalyzer.js:36-67 | an empty reply fails; otherwise the fence-stripped, trimmed text is parsed and validated |
| QueryAnalyzer.AnalyzeQuery | backend/queryAnalyzer.js:19-77 | success is a well-formed analysis; every failure carries `Query analysis failed: `; a missing prompt and a failed call are reported with their messages |
| QueryAnalyzer.CleanJsonFenced | backend/queryAnalyzer.js:47 | a reply fenced as ```` ```json ```` reads as the JSON inside |
| QueryAnalyzer.FencedReadsAsBare | backend/queryAnalyzer.js:36-53 | a fenced reply and the bare JSON give the same analysis |
| QueryAnalyzer.FencedReplyAnalyzesAsBare | backend/queryAnalyzer.js:19-77 | two models, one answering fenced and one bare, lead to the same result |
| BasicFormat.MemberLines | backend/azureQueryHandler.js:112-115 | one `  - key: value` line per entry of a nested object |
| BasicFormat.ItemLines | backend/azureQueryHandler.js:116-124 | one numbered line per array item, counting from 1 |
| BasicFormat.FieldLines | backend/azureQueryHandler.js:110-127 | an entry gives no line exactly when its value is nullish, and otherwise starts with its key; an object gives a heading and one line per member, an array a count line and one numbered line per item from 1, a scalar one `key: value` line |
| BasicFormat.SplitUnlines | backend/azureQueryHandler.js:107-131 | lines each ended by a line feed split back into those lines |
| BasicFormat.NoDataIffFalsy | backend/azureQueryHandler.js:103-107 | the layout says `No data available.` exactly for falsy data, and starts with the heading otherwise |
| BasicFormat.NullishEntryAddsNothing | backend/azureQueryHandler.js:110 | an entry holding `null` or `undefined` leaves no trace in the layout |
| BasicFormat.FormatBasicResponse | backend/azureQueryHandler.js:102-132 | falsy data gives `No data available.`; otherwise the heading, a blank line and the entries' lines, each ended by a line feed |
| BasicFormat.ArrayEntryLines | backend/azureQueryHandler.js:116-124 | an array entry takes one count line and one line per item, however deeply objects nest |
| BasicFormat.FormatExample | backend/azureQueryHandler.js:102-132 | `{ a: 1, b: [1, 2], c: { d: "x" } }` lays out as `a: 1`, `b: 2 items`, `  1. 1`, `  2. 2`, `c:`, `  - d: x` |
| QueryHandler.GenerateResponse | backend/azureQueryHandler.js:61-95 | a truthy error is reported as is; otherwise the trimmed reply, or the plain layout after any failure on the model path |
| QueryHandler.SourceOf | backend/azureQueryHandler.js:38 | the answer's source is the result's own source when that is a non-empty string, and `Azure Resource Manager` otherwise; never empty |
| QueryHandler.Phrase | backend/azureQueryHandler.js:34-40 | an analysed question is answered with the phrased response, the result's source, the analysis and no error |
| QueryHandler.Pipeline | backend/azureQueryHandler.js:21-52 | an analysis failure with message m gives exactly the apology for m under `Error Handler`, with no analysis and error m; a successful analysis a gives the phrased answer to the query's result on a, with its source and a |
| QueryHandler.QueryAzureInfrastructure | backend/azureQueryHandler.js:21-52 | `Pipeline`'s contract with the resource query being `executeAzureQuery` on the directory |
| QueryHandler.DirectoryQuery | backend/azureQueryHandler.js:30 | the resource query the pipeline calls is `executeAzureQuery` on the directory, defined on every well-formed analysis |
| QueryHandler.ErrorAnswerIgnoresModel | backend/azureQueryHandler.js:64-66 | a reported error does not depend on the model or the prompts |
| QueryHandler.FailingModelFallsBack | backend/azureQueryHandler.js:89-94 | when every call fails, the answer is the plain layout |
| QueryHandler.AnswerShape | backend/azureQueryHandler.js:36-50 | every answer names a source; errors say the analysis failed; analyses are well-formed |
| QueryHandler.MissingAnalyzerPrompt | backend/azureQueryHandler.js:42-50 | without the analyzer prompt, the answer is the apology for `Query analysis failed: Failed to load prompt: query-analyzer`, under `Error Handler`, with that error and no analysis |
| QueryHandler.ResourceErrorReported | backend/azureQueryHandler.js:30-40 | a resource error after a good analysis reaches the user under the default source |

## Left out

- Logging, `async`/`await` and the client set-up are not modelled.
- Azure, the prompt files, the chat service and `JSON.parse` are parameters.
  The model is a function of the request, so every call with the same request
  gets the same answer.
- The outer `catch` of `executeAzureQuery` (backend/azureResourceClient.js:61-67)
  is unreachable, because every handler catches its own errors. The `details`
  field it adds never appears.
- Errors raised inside `generateResponse`'s fallback, and in
  `queryAzureInfrastructure` after the analysis, cannot happen in the model.
- The 404 a missing entity raises is a stand-in error. Only its status code is
  modelled, not the SDK's message text.
- Statuses without a `code` are not modelled. `startsWith` on a missing code
  would throw.
- The analysis keeps only `intent`, `resourceType`, `resourceName` and
  `parameters`. The program returns the parsed object itself
  (backend/queryAnalyzer.js:55-67), so any other key the language model emits
  is echoed in the answer's `analysis`; the model drops such keys.
- The analysis fields are strings or absent. Other JSON types in those fields
  are not modelled.
- Numbers are integers. `NaN`, infinities and fractions are not modelled, and
  the sampling settings are kept in hundredths.
- Json.Text: numbers are unbounded integers, while JavaScript numbers are
  doubles. Above 2^53 a record value such as `maxSizeBytes` would lose
  precision, and from 10^21 up `String(n)` and `JSON.stringify` print an
  exponent (`1e+21`) where `IntToString` prints every digit.
- Strings are `seq<char>`. `toLowerCase` is modelled on ASCII letters only.
- Prompt keys are identifier-like. Keys holding regular-expression
  metacharacters are not modelled.
- Replacement values have no capture groups, so `$1` and similar stand for
  themselves.
- `JSON.stringify` is modelled for the values the backend builds. Functions,
  symbols, `toJSON` and cycles are not modelled.
- The model's Azure compares group, virtual machine, virtual network and
  storage-account names exactly. Azure itself ignores case, so a name that
  differs only in case is a miss in the model and a hit in the program.
  Databases, subnets and generic resources are matched ignoring case, as the
  code does.
- Each group's listing is probed at most once per handler call. That timing is
  not stated.
- ResourceClient.ExecuteAzureQuery: its contract names only the list-all and
  cost routes. The type routes are stated by one lemma per type in
  ResourceClientProperties, which keeps each proof small.
- QueryHandler.Pipeline: it takes the resource query as a parameter.
  `QueryAzureInfrastructure` instantiates it with `ExecuteAzureQuery`. This
  keeps the pipeline's proofs independent of the handlers' definitions.
- QueryAnalyzer.CleanJsonFenced: a reply fenced with a bare ```` ``` ```` is
  not given a lemma of its own. `StripAll` models both fence patterns.
- `generateResponse`'s `analysis` argument is not used by the source, and is
  dropped.

=== FILE: basic_format.dfy ===
/** The fallback answer: the data laid out as plain text, one line per
    scalar entry, a heading and indented lines for nested objects and
    arrays. */
module BasicFormat {
  import opened Strings
  import opened Json

  /** Lines written out, each followed by a line feed. */
  function Unlines(lines: seq<string>): string
    decreases |lines|
  {
    if |lines| == 0 then "" else lines[0] + "\n" + Unlines(lines[1..])
  }

  const NoData := "No data available."
  const HeaderLine := "Here is the information I found:"
  /** The heading line and a blank line. */
  const Header := Unlines([HeaderLine, ""])

  /** How an array item is printed: objects, arrays and `null` (whose
      `typeof` is `"object"`) as compact JSON, anything else by `String`. */
  function ItemText(item: Value): string {
    if item.Obj? || item.Arr? || item.Null? then Serialize(item, "", "") else Text(item)
  }

  /** The `  - key: value` lines of a nested object, one per entry. */
  function MemberLines(fields: seq<Field>): (ls: seq<string>)
    ensures |ls| == |fields|
    ensures forall i :: 0 <= i < |fields| ==>
      ls[i] == "  - " + fields[i].key + ": " + Text(fields[i].val)
    decreases |fields|
  {
    if |fields| == 0 then []
    else ["  - " + fields[0].key + ": " + Text(fields[0].val)] + MemberLines(fields[1..])
  }

  /** The numbered `  n. item` lines of an array, numbering from `first`. */
  function ItemLines(items: seq<Value>, first: nat): (ls: seq<string>)
    ensures |ls| == |items|
    ensures forall i :: 0 <= i < |items| ==>
      ls[i] == "  " + NatToString(first + i) + ". " + ItemText(items[i])
    decreases |items|
  {
    if |items| == 0 then []
    else ["  " + NatToString(first) + ". " + ItemText(items[0])] + ItemLines(items[1..], first + 1)
  }

  /** The lines one top-level entry contributes: none when its value is
      nullish, a heading and one line per entry for an object, a count and
      one numbered line per item for an array, one line otherwise. */
  function FieldLines(f: Field): (ls: seq<string>)
    ensures ls == [] <==> IsNullish(f.val)
    ensures !IsNullish(f.val) ==> f.key <= ls[0]
    ensures f.val.Obj? ==> |ls| == |f.val.fields| + 1 && ls[0] == f.key + ":"
    ensures f.val.Obj? ==> forall i :: 0 <= i < |f.val.fields| ==>
      ls[i + 1] == "  - " + f.val.fields[i].key + ": " + Text(f.val.fields[i].val)
    ensures f.val.Arr? ==> |ls| == |f.val.items| + 1
    ensures f.val.Arr? ==> forall i :: 0 <= i < |f.val.items| ==>
      ls[i + 1] == "  " + NatToString(i + 1) + ". " + ItemText(f.val.items[i])
    ensures !IsNullish(f.val) && !f.val.Obj? && !f.val.Arr? ==> ls == [f.key + ": " + Text(f.val)]
  {
    if IsNullish(f.val) then []
    else match f.val
      case Obj(sub) => [f.key + ":"] + MemberLines(sub)
      case Arr(items) => [f.key + ": " + NatToString(|items|) + " items"] + ItemLines(items, 1)
      case _ => [f.key + ": " + Text(f.val)]
  }

  function BodyLines(fields: seq<Field>): seq<string>
    decreases |fields|
  {
    if |fields| == 0 then [] else FieldLines(fields[0]) + BodyLines(fields[1..])
  }

  /** `formatBasicResponse(data)` */
  function FormatBasicResponse(data: Value): (r: string)
    ensures !Truthy(data) ==> r == NoData
    ensures Truthy(data) ==> r == Unlines([HeaderLine, ""] + BodyLines(Entries(data)))
  {
    if !Truthy(data) then NoData
    else
      UnlinesAppend([HeaderLine, ""], BodyLines(Entries(data)));
      Header + Unlines(BodyLines(Entries(data)))
  }

  // ---------------------------------------------------------------------
  // Properties
  // ---------------------------------------------------------------------

  lemma {:induction false} UnlinesAppend(a: seq<string>, b: seq<string>)
    ensures Unlines(a + b) == Unlines(a) + Unlines(b)
    decreases |a|
  {
    if |a| > 0 {
      assert (a + b)[0] == a[0];
      assert (a + b)[1..] == a[1..] + b;
      UnlinesAppend(a[1..], b);
      assert Unlines(a + b) == a[0] + "\n" + (Unlines(a[1..]) + Unlines(b));
    } else {
      assert a + b == b;
    }
  }

  /** Lines without line feeds come back from splitting at line feeds, with
      the empty piece after the last one. */
  lemma {:induction false} SplitUnlines(lines: seq<string>)
    requires forall i :: 0 <= i < |lines| ==> '\n' !in lines[i]
    ensures Split(Unlines(lines), "\n") == lines + [""]
    decreases |lines|
  {
    if |lines| == 0 {
      assert Split("", "\n") == [""];
    } else {
      SplitUnlines(lines[1..]);
      SplitAfterLine(lines[0], '\n', Unlines(lines[1..]));
      assert [lines[0]] + (lines[1..] + [""]) == lines + [""];
    }
  }

  /** The plain layout says there is no data exactly when the data is falsy. */
  lemma NoDataIffFalsy(data: Value)
    ensures FormatBasicResponse(data) == NoData <==> !Truthy(data)
    ensures Truthy(data) ==> Header <= FormatBasicResponse(data)
  {
    if Truthy(data) {
      var r := FormatBasicResponse(data);
      assert r[0] == 'H';
    }
  }

  lemma {:induction false} BodyLinesAppend(a: seq<Field>, b: seq<Field>)
    ensures BodyLines(a + b) == BodyLines(a) + BodyLines(b)
    decreases |a|
  {
    if |a| > 0 {
      assert (a + b)[0] == a[0];
      assert (a + b)[1..] == a[1..] + b;
      BodyLinesAppend(a[1..], b);
      assert BodyLines(a + b) == FieldLines(a[0]) + (BodyLines(a[1..]) + BodyLines(b));
    } else {
      assert a + b == b;
    }
  }

  lemma NullishFieldSilent(f: Field)
    requires IsNullish(f.val)
    ensures BodyLines([f]) == []
  {
    assert FieldLines(f) == [];
    assert [f][1..] == [];
  }

  lemma {:induction false} SilentEntry(a: seq<Field>, f: Field, b: seq<Field>)
    requires BodyLines([f]) == []
    ensures BodyLines(a + [f] + b) == BodyLines(a + b)
  {
    BodyLinesAppend(a + [f], b);
    BodyLinesAppend(a, [f]);
    BodyLinesAppend(a, b);
  }

  /** An entry holding `null` or `undefined` leaves no trace in the layout. */
  lemma NullishEntryAddsNothing(a: seq<Field>, f: Field, b: seq<Field>)
    requires IsNullish(f.val)
    ensures BodyLines(a + [f] + b) == BodyLines(a + b)
  {
    NullishFieldSilent(f);
    SilentEntry(a, f, b);
  }

  /** An item that is not a string with a line feed prints on one line. */
  predicate OneLineItem(item: Value) {
    !(item.Str? && '\n' in item.s)
  }

  lemma ItemTextOneLine(item: Value)
    requires OneLineItem(item)
    ensures '\n' !in ItemText(item)
  {
    if item.Obj? || item.Arr? || item.Null? {
      CompactHasNoNewline(item, "");
    } else if item.Num? {
      NumberHasNoNewline(item.n);
    }
  }

  /** The count line heading an array entry. */
  lemma ArrayHeadLine(key: string, items: seq<Value>)
    ensures FieldLines(Field(key, Arr(items)))[0] == key + ": " + NatToString(|items|) + " items"
  {
  }

  /** An array entry takes one line for the count and one per item, however
      deeply the items nest, since compact JSON escapes line feeds. */
  lemma ArrayEntryLines(key: string, items: seq<Value>)
    requires '\n' !in key
    requires forall i :: 0 <= i < |items| ==> OneLineItem(items[i])
    ensures |FieldLines(Field(key, Arr(items)))| == |items| + 1
    ensures forall i :: 0 <= i < |items| + 1 ==> '\n' !in FieldLines(Field(key, Arr(items)))[i]
  {
    var ls := FieldLines(Field(key, Arr(items)));
    forall i | 0 <= i < |items| + 1
      ensures '\n' !in ls[i]
    {
      if i == 0 {
        var count := NatToString(|items|);
        assert '\n' !in count;
        ArrayHeadLine(key, items);
      } else {
        ItemTextOneLine(items[i - 1]);
        assert '\n' !in NatToString(i);
      }
    }
  }

  lemma DigitText(d: nat)
    requires d < 10
    ensures Text(Num(d)) == [DigitChar(d)]
    ensures ItemText(Num(d)) == [DigitChar(d)]
    ensures NatToString(d) == [DigitChar(d)]
  {
  }

  lemma ExampleScalar()
    ensures FieldLines(Field("a", Num(1))) == ["a: 1"]
  {
    DigitText(1);
    assert DigitChar(1) == '1';
    assert "a" + ": " + "1" == "a: 1";
  }

  lemma ExampleArray()
    ensures FieldLines(Field("b", Arr([Num(1), Num(2)]))) == ["b: 2 items", "  1. 1", "  2. 2"]
  {
    DigitText(1);
    DigitText(2);
    assert DigitChar(1) == '1' && DigitChar(2) == '2';
    assert "b" + ": " + "2" + " items" == "b: 2 items";
    var ls := ItemLines([Num(1), Num(2)], 1);
    assert ls[0] == "  1. 1" && ls[1] == "  2. 2";
  }

  lemma ExampleObject()
    ensures FieldLines(Field("c", Obj([Field("d", Str("x"))]))) == ["c:", "  - d: x"]
  {
    assert "c" + ":" == "c:";
    var ls := MemberLines([Field("d", Str("x"))]);
    assert ls[0] == "  - d: x";
  }

  const ExampleFields := [Field("a", Num(1)), Field("b", Arr([Num(1), Num(2)])),
                           Field("c", Obj([Field("d", Str("x"))]))]
  const ExampleBody := ["a: 1", "b: 2 items", "  1. 1", "  2. 2", "c:", "  - d: x"]

  lemma ExampleBodyLines()
    ensures BodyLines(ExampleFields) == ExampleBody
  {
    var fs := ExampleFields;
    ExampleScalar();
    ExampleArray();
    ExampleObject();
    assert fs[1..][1..][1..] == [];
  }

  /** `{ a: 1, b: [1, 2], c: { d: "x" } }` in the plain layout. */
  lemma FormatExample()
    ensures FormatBasicResponse(Obj(ExampleFields))
      == Unlines([HeaderLine, "", "a: 1", "b: 2 items", "  1. 1", "  2. 2", "c:", "  - d: x"])
  {
    ExampleBodyLines();
    assert [HeaderLine, ""] + ExampleBody == [HeaderLine, "", "a: 1", "b: 2 items", "  1. 1", "  2. 2", "c:", "  - d: x"];
  }
}

=== FILE: cloud.dfy ===
/** A snapshot of the cloud directories the resource client queries: the
    resource groups of a subscription and, per group, what the compute, SQL,
    network, storage and resource-manager services list or return. */
module Cloud {
  import opened Wrappers
  import opened Json
  import opened Search

  /** A service error; the handlers branch only on its message and on a
      404 status code. */
  datatype Error = Error(message: string, statusCode: Option<int>)

  predicate IsNotFound(e: Error) {
    e.statusCode == Some(404)
  }

  /** The answer a service gives for a name it does not hold. Its message
      text is a stand-in: nothing in the backend inspects it. */
  function NotFound(name: string): (e: Error)
    ensures IsNotFound(e)
  {
    Error("The resource '" + name + "' could not be found.", Some(404))
  }

  /** A paged enumeration: the records delivered, then possibly an error
      raised while fetching a later page. */
  datatype Listing<T> = Listing(items: seq<T>, failure: Option<Error>)

  datatype InstanceStatus = InstanceStatus(code: string, displayStatus: Option<string>)

  datatype VirtualMachine = VirtualMachine(
    name: string,
    vmSize: Value,
    osType: Value,
    location: Value,
    provisioningState: Value,
    tags: Value,
    statuses: seq<InstanceStatus>)  // instanceView.statuses, empty when absent

  datatype Database = Database(
    name: string,
    skuName: Value,
    tier: Value,
    capacity: Value,
    status: Value,
    location: Value,
    maxSizeBytes: Value,
    collation: Value)

  datatype SqlServer = SqlServer(name: string, databases: Listing<Database>)

  datatype Subnet = Subnet(name: string, addressPrefix: Value, ipConfigurationCount: nat)

  datatype VirtualNetwork = VirtualNetwork(
    name: string,
    location: Value,
    addressPrefixes: Value,
    subnets: Option<seq<Subnet>>)

  datatype StorageAccount = StorageAccount(
    name: string,
    skuName: Value,
    kind: Value,
    location: Value,
    provisioningState: Value,
    accessTier: Value,
    httpsTrafficOnly: Value)

  datatype Resource = Resource(name: string, resourceType: string, location: Value, id: Value)

  datatype Group = Group(
    name: string,
    location: Value,
    provisioningState: Value,
    tags: Value,
    virtualMachines: Listing<VirtualMachine>,
    sqlServers: Listing<SqlServer>,
    virtualNetworks: Listing<VirtualNetwork>,
    storageAccounts: Listing<StorageAccount>,
    resources: Listing<Resource>)

  /** The subscription: its groups in enumeration order, and the error
      `resourceGroups.list()` raises, if any. */
  datatype Directory = Directory(groups: seq<Group>, enumerationFailure: Option<Error>)

  function GroupNames(dir: Directory): (names: seq<string>)
    ensures |names| == |dir.groups|
    ensures forall i :: 0 <= i < |names| ==> names[i] == dir.groups[i].name
  {
    seq(|dir.groups|, i requires 0 <= i < |dir.groups| => dir.groups[i].name)
  }

  /** `resourceGroups.get(name)` */
  function GetGroup(dir: Directory, name: string): (r: Result<Group, Error>)
    ensures r.Success? ==> r.value in dir.groups && r.value.name == name
    ensures r.Failure? <==> forall g :: g in dir.groups ==> g.name != name
    ensures r.Failure? ==> r.error == NotFound(name)
  {
    var k := FindFirst(dir.groups, (g: Group) => g.name == name);
    if k < |dir.groups| then Success(dir.groups[k]) else Failure(NotFound(name))
  }

  /** A per-group listing call; a group the directory does not hold answers
      with a not-found error and no records. */
  function ListIn<T>(dir: Directory, rg: string, select: Group -> Listing<T>): (l: Listing<T>)
    ensures GetGroup(dir, rg).Failure? ==> l == Listing([], Some(NotFound(rg)))
    ensures GetGroup(dir, rg).Success? ==> l == select(GetGroup(dir, rg).value)
  {
    match GetGroup(dir, rg)
    case Success(g) => select(g)
    case Failure(e) => Listing([], Some(e))
  }

  /** A direct `get(rg, name)`: the first record delivered under exactly that
      name; otherwise the listing's own error, or not-found. */
  function GetIn<T>(dir: Directory, rg: string, select: Group -> Listing<T>, name: string,
                    nameOf: T -> string): (r: Result<T, Error>)
    ensures r.Success? ==> r.value in ListIn(dir, rg, select).items && nameOf(r.value) == name
    ensures r.Failure? <==> forall x :: x in ListIn(dir, rg, select).items ==> nameOf(x) != name
    ensures r.Failure? && ListIn(dir, rg, select).failure.None? ==> r.error == NotFound(name)
  {
    var l := ListIn(dir, rg, select);
    var k := FindFirst(l.items, (x: T) => nameOf(x) == name);
    if k < |l.items| then Success(l.items[k])
    else if l.failure.Some? then Failure(l.failure.value)
    else Failure(NotFound(name))
  }

  function VirtualMachinesOf(g: Group): Listing<VirtualMachine> { g.virtualMachines }
  function SqlServersOf(g: Group): Listing<SqlServer> { g.sqlServers }
  function VirtualNetworksOf(g: Group): Listing<VirtualNetwork> { g.virtualNetworks }
  function StorageAccountsOf(g: Group): Listing<StorageAccount> { g.storageAccounts }
  function ResourcesOf(g: Group): Listing<Resource> { g.resources }

  /** `computeClient.virtualMachines.get(rg, name, { expand: 'instanceView' })` */
  function GetVirtualMachine(dir: Directory, rg: string, name: string): Result<VirtualMachine, Error> {
    GetIn(dir, rg, VirtualMachinesOf, name, (v: VirtualMachine) => v.name)
  }

  /** `networkClient.virtualNetworks.get(rg, name)` */
  function GetVirtualNetwork(dir: Directory, rg: string, name: string): Result<VirtualNetwork, Error> {
    GetIn(dir, rg, VirtualNetworksOf, name, (v: VirtualNetwork) => v.name)
  }

  /** `storageClient.storageAccounts.getProperties(rg, name)` */
  function GetStorageAccount(dir: Directory, rg: string, name: string): Result<StorageAccount, Error> {
    GetIn(dir, rg, StorageAccountsOf, name, (a: StorageAccount) => a.name)
  }
}

=== FILE: intents.dfy ===
/** The structured intent the query analyzer extracts from a question and
    the resource client consumes. */
module Intents {
  import opened Wrappers
  import opened Json

  /** `{ intent, resourceType, resourceName, parameters }` after validation:
      `resourceName` may be missing only for the `generic` resource type. */
  datatype Analysis = Analysis(
    intent: string,
    resourceType: string,
    resourceName: Option<string>,
    parameters: map<string, string>)

  /** What the analyzer guarantees of every analysis it returns. */
  predicate WellFormed(a: Analysis) {
    && a.intent != ""
    && a.resourceType != ""
    && (a.resourceType != "generic" ==> Present(a.resourceName))
  }

  /** `parameters[key]`, `undefined` when absent. */
  function Param(parameters: map<string, string>, key: string): (o: Option<string>)
    ensures o.Some? <==> key in parameters
    ensures o.Some? ==> o.value == parameters[key]
  {
    if key in parameters then Some(parameters[key]) else None
  }
}

=== FILE: json.dfy ===
/** JSON-like values as the backend builds and prints them: the order of an
    object's fields stands for JavaScript's property enumeration order (which
    lists integer-like keys first), and `undefined` is a value a field can
    hold. */
module Json {
  import opened Wrappers
  import opened Strings

  datatype Value =
    | Undefined
    | Null
    | Bool(b: bool)
    | Num(n: int)
    | Str(s: string)
    | Arr(items: seq<Value>)
    | Obj(fields: seq<Field>)

  datatype Field = Field(key: string, val: Value)

  /** JavaScript truthiness (numbers are integers here, so NaN does not arise). */
  predicate Truthy(v: Value) {
    match v
    case Undefined => false
    case Null => false
    case Bool(b) => b
    case Num(n) => n != 0
    case Str(s) => s != ""
    case Arr(_) => true
    case Obj(_) => true
  }

  /** `value === null || value === undefined` */
  predicate IsNullish(v: Value) {
    v.Undefined? || v.Null?
  }

  /** `String(v)`: the text a template literal `${v}` produces. */
  function Text(v: Value): (t: string)
    ensures v.Str? ==> t == v.s
    ensures v.Num? ==> t == IntToString(v.n)
    ensures v.Undefined? ==> t == "undefined"
    ensures v.Null? ==> t == "null"
    ensures v.Bool? ==> t == (if v.b then "true" else "false")
    ensures v.Obj? ==> t == "[object Object]"
    decreases v, 1
  {
    match v
    case Undefined => "undefined"
    case Null => "null"
    case Bool(b) => if b then "true" else "false"
    case Num(n) => IntToString(n)
    case Str(s) => s
    case Arr(items) => JoinTexts(items)
    case Obj(_) => "[object Object]"
  }

  /** How `Array.prototype.join` prints one item: nullish items as the
      empty string. */
  function ElementText(item: Value): string
    decreases item, 2
  {
    if IsNullish(item) then "" else Text(item)
  }

  /** `Array.prototype.join(',')` */
  function JoinTexts(items: seq<Value>): string
    decreases items, 0
  {
    if |items| == 0 then ""
    else if |items| == 1 then ElementText(items[0])
    else ElementText(items[0]) + "," + JoinTexts(items[1..])
  }

  /** `String` of an array is its items' texts joined with commas. */
  lemma {:induction false} ArrayTextJoins(items: seq<Value>)
    ensures Text(Arr(items)) == Join(seq(|items|, i requires 0 <= i < |items| => ElementText(items[i])), ",")
    decreases |items|
  {
    var texts := seq(|items|, i requires 0 <= i < |items| => ElementText(items[i]));
    if |items| > 1 {
      ArrayTextJoins(items[1..]);
      assert texts[1..] == seq(|items[1..]|, i requires 0 <= i < |items[1..]| => ElementText(items[1..][i]));
    }
  }

  /** `Object.entries(v)`: the fields of an object, the indexed items of an
      array, the indexed characters of a string, nothing for other values. */
  function Entries(v: Value): (es: seq<Field>)
    ensures v.Obj? ==> es == v.fields
    ensures v.Arr? ==> |es| == |v.items|
    ensures v.Arr? ==> forall i :: 0 <= i < |v.items| ==> es[i] == Field(NatToString(i), v.items[i])
    ensures v.Str? ==> |es| == |v.s|
    ensures v.Str? ==> forall i :: 0 <= i < |v.s| ==> es[i] == Field(NatToString(i), Str([v.s[i]]))
    ensures !(v.Obj? || v.Arr? || v.Str?) ==> es == []
  {
    match v
    case Obj(fs) => fs
    case Arr(items) => seq(|items|, i requires 0 <= i < |items| => Field(NatToString(i), items[i]))
    case Str(s) => seq(|s|, i requires 0 <= i < |s| => Field(NatToString(i), Str([s[i]])))
    case _ => []
  }

  /** A string or `undefined` when the source passes an optional string through. */
  function OptStr(o: Option<string>): Value {
    match o
    case Some(s) => Str(s)
    case None => Undefined
  }

  /** Present and non-empty: JavaScript truthiness of an optional string. */
  predicate Present(o: Option<string>) {
    o.Some? && o.value != ""
  }

  /** The keys of an object's fields, in order. */
  function Keys(fs: seq<Field>): (ks: seq<string>)
    ensures |ks| == |fs|
    ensures forall i :: 0 <= i < |fs| ==> ks[i] == fs[i].key
  {
    seq(|fs|, i requires 0 <= i < |fs| => fs[i].key)
  }

  // ---------------------------------------------------------------------
  // JSON.stringify
  // ---------------------------------------------------------------------

  function HexDigit(d: nat): char
    requires d < 16
  {
    "0123456789abcdef"[d]
  }

  /** How `JSON.stringify` writes one character of a string: quotation mark,
      reverse solidus and control characters escaped, lower-case hex. */
  function EscapeChar(c: char): (e: string)
    ensures |e| >= 1
    ensures (e[0] == '\\') <==> (c == '"' || c == '\\' || c < ' ')
    ensures e[0] != '\\' ==> e == [c]
    ensures c != '\n' ==> '\n' !in e
  {
    if c == '"' then "\\\""
    else if c == '\\' then "\\\\"
    else if c == '\U{0008}' then "\\b"
    else if c == '\U{000C}' then "\\f"
    else if c == '\n' then "\\n"
    else if c == '\r' then "\\r"
    else if c == '\t' then "\\t"
    else if c < ' ' then "\\u00" + [HexDigit(c as int / 16), HexDigit(c as int % 16)]
    else [c]
  }

  function EscapeAll(s: string): string
    decreases |s|
  {
    if |s| == 0 then "" else EscapeChar(s[0]) + EscapeAll(s[1..])
  }

  /** The JSON string literal for `s`. */
  function Quote(s: string): string {
    "\"" + EscapeAll(s) + "\""
  }

  /** The value of a lower-case hex digit, the inverse of `HexDigit`. */
  function HexValue(c: char): (d: int)
    ensures -1 <= d < 16
  {
    if '0' <= c <= '9' then c as int - '0' as int
    else if 'a' <= c <= 'f' then c as int - 'a' as int + 10
    else -1
  }

  lemma HexRoundTrip(d: nat)
    requires d < 16
    ensures HexValue(HexDigit(d)) == d
  {
    assert "0123456789abcdef"[d] as int == if d < 10 then '0' as int + d else 'a' as int + d - 10;
  }

  function Cons(c: char, rest: Option<string>): Option<string> {
    match rest
    case Some(r) => Some([c] + r)
    case None => None
  }

  /** Reads the body of a JSON string literal back: the escapes `JSON.stringify`
      writes, plus `\/` and any four-digit `\u` escape. */
  function Unescape(t: string): (r: Option<string>)
    decreases |t|
  {
    if |t| == 0 then Some("")
    else if t[0] == '\\' then
      if |t| < 2 then None
      else if t[1] == '"' then Cons('"', Unescape(t[2..]))
      else if t[1] == '\\' then Cons('\\', Unescape(t[2..]))
      else if t[1] == '/' then Cons('/', Unescape(t[2..]))
      else if t[1] == 'b' then Cons('\U{0008}', Unescape(t[2..]))
      else if t[1] == 'f' then Cons('\U{000C}', Unescape(t[2..]))
      else if t[1] == 'n' then Cons('\n', Unescape(t[2..]))
      else if t[1] == 'r' then Cons('\r', Unescape(t[2..]))
      else if t[1] == 't' then Cons('\t', Unescape(t[2..]))
      else if t[1] == 'u' && |t| >= 6 && HexValue(t[2]) >= 0 && HexValue(t[3]) >= 0
              && HexValue(t[4]) >= 0 && HexValue(t[5]) >= 0 then
        var code := ((HexValue(t[2]) * 16 + HexValue(t[3])) * 16 + HexValue(t[4])) * 16 + HexValue(t[5]);
        if 0xD800 <= code < 0xE000 then None else Cons(code as char, Unescape(t[6..]))
      else None
    else if t[0] == '"' || t[0] < ' ' then None
    else Cons(t[0], Unescape(t[1..]))
  }

  /** A control character without a short escape reads back from its
      `\u00XX` form. */
  lemma UnescapeControl(c: char, rest: string)
    requires c < ' ' && c != '\U{0008}' && c != '\U{000C}' && c != '\n' && c != '\r' && c != '\t'
    ensures Unescape(EscapeChar(c) + rest) == Cons(c, Unescape(rest))
  {
    var hi, lo := c as int / 16, c as int % 16;
    assert hi * 16 + lo == c as int;
    var e := EscapeChar(c);
    assert e == "\\u00" + [HexDigit(hi), HexDigit(lo)];
    HexRoundTrip(hi);
    HexRoundTrip(lo);
    HexRoundTrip(0);
    UnescapeFourHex(e + rest, hi, lo);
    assert (e + rest)[6..] == rest;
  }

  /** A `\u00XX` escape reads back as the character with that code. */
  lemma UnescapeFourHex(t: string, hi: nat, lo: nat)
    requires |t| >= 6 && t[0] == '\\' && t[1] == 'u'
    requires HexValue(t[2]) == 0 && HexValue(t[3]) == 0 && HexValue(t[4]) == hi && HexValue(t[5]) == lo
    requires hi < 2 && lo < 16
    ensures Unescape(t) == Cons((hi * 16 + lo) as char, Unescape(t[6..]))
  {
  }

  /** One escaped character reads back as itself. */
  lemma UnescapeChar(c: char, rest: string)
    ensures Unescape(EscapeChar(c) + rest) == Cons(c, Unescape(rest))
  {
    var t := EscapeChar(c) + rest;
    if c < ' ' && c != '\U{0008}' && c != '\U{000C}' && c != '\n' && c != '\r' && c != '\t' {
      UnescapeControl(c, rest);
    } else if EscapeChar(c)[0] == '\\' {
      assert t[2..] == rest;
    } else {
      assert t[1..] == rest;
    }
  }

  /** Escaping is undone by reading back: `JSON.parse(JSON.stringify(s)) === s`. */
  lemma {:induction false} EscapeRoundTrip(s: string)
    ensures Unescape(EscapeAll(s)) == Some(s)
    decreases |s|
  {
    if |s| > 0 {
      EscapeRoundTrip(s[1..]);
      UnescapeChar(s[0], EscapeAll(s[1..]));
      assert [s[0]] + s[1..] == s;
    }
  }

  /** An escaped string holds no line break. */
  lemma {:induction false} EscapeHasNoNewline(s: string)
    ensures '\n' !in EscapeAll(s)
    decreases |s|
  {
    if |s| > 0 {
      EscapeHasNoNewline(s[1..]);
      if s[0] == '\n' {
        assert EscapeChar(s[0]) == "\\n";
      }
      assert EscapeAll(s) == EscapeChar(s[0]) + EscapeAll(s[1..]);
    }
  }

  /** `JSON.stringify(v, null, gap)` below the top level, `indent` being the
      current indentation; `undefined` is written `null`, as for array items. */
  function Serialize(v: Value, gap: string, indent: string): (r: string)
    ensures |r| >= 1
    ensures IsNullish(v) ==> r == "null"
    ensures v.Num? ==> r == IntToString(v.n)
    ensures v.Bool? ==> r == (if v.b then "true" else "false")
    ensures v.Str? ==> |r| >= 2 && r[0] == '"' && r[|r| - 1] == '"' && Unescape(r[1..|r| - 1]) == Some(v.s)
    ensures v.Arr? ==> r[0] == '[' && r[|r| - 1] == ']'
    ensures v.Obj? ==> r[0] == '{' && r[|r| - 1] == '}'
    decreases v, 2
  {
    match v
    case Undefined => "null"
    case Null => "null"
    case Bool(b) => if b then "true" else "false"
    case Num(n) => IntToString(n)
    case Str(s) =>
      EscapeRoundTrip(s);
      assert Quote(s)[1..|Quote(s)| - 1] == EscapeAll(s);
      Quote(s)
    case Arr(items) => Bracket("[", "]", ItemTexts(items, gap, indent + gap), gap, indent)
    case Obj(fields) => Bracket("{", "}", MemberTexts(fields, gap, indent + gap), gap, indent)
  }

  function ItemTexts(items: seq<Value>, gap: string, inner: string): (texts: seq<string>)
    ensures |texts| == |items|
    decreases items, 1
  {
    if |items| == 0 then []
    else [Serialize(items[0], gap, inner)] + ItemTexts(items[1..], gap, inner)
  }

  /** The `"key": value` members of an object; fields holding `undefined`
      are left out. */
  function MemberTexts(fields: seq<Field>, gap: string, inner: string): (texts: seq<string>)
    ensures |texts| <= |fields|
    decreases fields, 1
  {
    if |fields| == 0 then []
    else
      var rest := MemberTexts(fields[1..], gap, inner);
      if fields[0].val.Undefined? then rest
      else [Quote(fields[0].key) + ":" + (if gap == "" then "" else " ")
            + Serialize(fields[0].val, gap, inner)] + rest
  }

  /** The brackets around serialized members: empty brackets when there are
      none, one line without a gap, one member per indented line with one. */
  function Bracket(open: string, close: string, texts: seq<string>, gap: string, indent: string): (r: string)
    requires |open| == 1 && |close| == 1
    ensures |r| >= 2 && r[0] == open[0] && r[|r| - 1] == close[0]
  {
    if |texts| == 0 then open + close
    else if gap == "" then open + Join(texts, ",") + close
    else
      var inner := indent + gap;
      open + "\n" + inner + Join(texts, ",\n" + inner) + "\n" + indent + close
  }

  /** `JSON.stringify(v, null, gap)`: `undefined` at the top level gives no text. */
  function Stringify(v: Value, gap: string): (r: Option<string>)
    ensures r.None? <==> v.Undefined?
  {
    if v.Undefined? then None else Some(Serialize(v, gap, ""))
  }

  lemma {:induction false} JoinHasNoNewline(parts: seq<string>, sep: string)
    requires forall i :: 0 <= i < |parts| ==> '\n' !in parts[i]
    requires '\n' !in sep
    ensures '\n' !in Join(parts, sep)
    decreases |parts|
  {
    if |parts| > 1 {
      JoinHasNoNewline(parts[1..], sep);
    }
  }

  lemma NumberHasNoNewline(n: int)
    ensures '\n' !in IntToString(n)
  {
    var r := IntToString(n);
    if n < 0 {
      assert r == "-" + NatToString(-n);
    }
  }

  /** The compact form (no gap) fits on one line. */
  lemma {:induction false} CompactHasNoNewline(v: Value, indent: string)
    ensures '\n' !in Serialize(v, "", indent)
    decreases v, 2
  {
    match v
    case Undefined =>
    case Null =>
    case Bool(_) =>
    case Num(n) => NumberHasNoNewline(n);
    case Str(s) => EscapeHasNoNewline(s);
    case Arr(items) => CompactArrayHasNoNewline(items, indent);
    case Obj(fields) => CompactObjectHasNoNewline(fields, indent);
  }

  lemma {:induction false} CompactArrayHasNoNewline(items: seq<Value>, indent: string)
    ensures '\n' !in Serialize(Arr(items), "", indent)
    decreases items, 2
  {
    assert indent + "" == indent;
    ItemsHaveNoNewline(items, indent);
    JoinHasNoNewline(ItemTexts(items, "", indent), ",");
  }

  lemma {:induction false} CompactObjectHasNoNewline(fields: seq<Field>, indent: string)
    ensures '\n' !in Serialize(Obj(fields), "", indent)
    decreases fields, 2
  {
    assert indent + "" == indent;
    MembersHaveNoNewline(fields, indent);
    JoinHasNoNewline(MemberTexts(fields, "", indent), ",");
  }

  lemma {:induction false} ItemsHaveNoNewline(items: seq<Value>, indent: string)
    ensures forall i :: 0 <= i < |items| ==> '\n' !in ItemTexts(items, "", indent)[i]
    decreases items, 1
  {
    if |items| > 0 {
      CompactHasNoNewline(items[0], indent);
      ItemsHaveNoNewline(items[1..], indent);
    }
  }

  lemma {:induction false} MembersHaveNoNewline(fields: seq<Field>, indent: string)
    ensures forall i :: 0 <= i < |MemberTexts(fields, "", indent)| ==> '\n' !in MemberTexts(fields, "", indent)[i]
    decreases fields, 1
  {
    if |fields| > 0 {
      MembersHaveNoNewline(fields[1..], indent);
      if !fields[0].val.Undefined? {
        EscapeHasNoNewline(fields[0].key);
        CompactHasNoNewline(fields[0].val, indent);
      }
    }
  }
}

=== FILE: language_model.dfy ===
/** The chat-completion service both model calls go through: a request is a
    system prompt, one user turn and the sampling settings; the answer is the
    first choice's content, possibly missing, or an error. */
module LanguageModel {
  import opened Wrappers

  /** Sampling settings; temperature and nucleus mass in hundredths. */
  datatype Settings = Settings(temperatureHundredths: nat, maxTokens: nat, topPHundredths: nat)

  datatype Request = Request(system: string, user: string, settings: Settings)

  /** `response.choices[0]?.message?.content`, or the error the call raised. */
  datatype Completion = Reply(content: Option<string>) | CallFailed(message: string)

  /** The deployed model, seen as a function of the request. */
  type Model = Request -> Completion
}

=== FILE: prompt_loader.dfy ===
/** The prompt store: named templates whose `{key}` placeholders are filled
    in from a variables object, one key after another, with every occurrence
    replaced as `String.prototype.replace` does for a global pattern. */
module PromptLoader {
  import opened Wrappers
  import opened Strings

  predicate KeyStart(c: char) {
    ('a' <= c <= 'z') || ('A' <= c <= 'Z') || c == '_'
  }

  predicate KeyChar(c: char) {
    KeyStart(c) || ('0' <= c <= '9')
  }

  /** A key whose placeholder, read as a regular expression, matches itself
      literally: letters, digits and underscores, not starting with a digit. */
  predicate PlainKey(k: string) {
    |k| > 0 && KeyStart(k[0]) && forall i :: 0 <= i < |k| ==> KeyChar(k[i])
  }

  function Placeholder(key: string): (p: string)
    ensures |p| == |key| + 2
  {
    "{" + key + "}"
  }

  /** The replacement text for one match `s[start..end]`: `$$` gives `$`,
      `$&` the match, `` $` `` what precedes it and `$'` what follows it; any
      other `$` stands for itself, there being no capture groups. */
  function Expand(v: string, s: string, start: nat, end: nat): (r: string)
    requires start <= end <= |s|
    ensures '$' !in v ==> r == v
    ensures v == "$&" ==> r == s[start..end]
    decreases |v|
  {
    if |v| >= 2 && v[0] == '$' && v[1] == '$' then "$" + Expand(v[2..], s, start, end)
    else if |v| >= 2 && v[0] == '$' && v[1] == '&' then
      assert v == "$&" ==> v[2..] == "";
      s[start..end] + Expand(v[2..], s, start, end)
    else if |v| >= 2 && v[0] == '$' && v[1] == '`' then s[..start] + Expand(v[2..], s, start, end)
    else if |v| >= 2 && v[0] == '$' && v[1] == '\'' then s[end..] + Expand(v[2..], s, start, end)
    else if |v| == 0 then ""
    else
      assert '$' !in v ==> '$' !in v[1..] && [v[0]] + v[1..] == v;
      [v[0]] + Expand(v[1..], s, start, end)
  }

  /** `s.replace(/p/g, v)` from position `i` on: matches are found left to
      right and do not overlap. */
  function ReplaceFrom(s: string, p: string, v: string, i: nat): string
    requires |p| > 0 && i <= |s|
    decreases |s| - i
  {
    if p <= s[i..] then Expand(v, s, i, i + |p|) + ReplaceFrom(s, p, v, i + |p|)
    else if i == |s| then ""
    else [s[i]] + ReplaceFrom(s, p, v, i + 1)
  }

  /** `s.replace(/p/g, v)`: a value without `$` is inserted at every
      occurrence, as splitting at the placeholder and joining with the value
      would; text without the placeholder, or a value of `$&`, leaves `s`
      as it was. */
  function ReplaceAll(s: string, p: string, v: string): (r: string)
    requires |p| > 0
    ensures '$' !in v ==> r == Join(Split(s, p), v)
    ensures !Contains(s, p) ==> r == s
    ensures v == "$&" ==> r == s
  {
    assert s[0..] == s;
    ReplaceFromLaws(s, p, v);
    ReplaceFrom(s, p, v, 0)
  }

  /** The substitution loop: the entries in order, each applied to the text
      the previous ones left. A template that mentions none of the keys comes
      back unchanged. */
  function Substitute(text: string, vars: seq<(string, string)>): (r: string)
    requires forall i :: 0 <= i < |vars| ==> PlainKey(vars[i].0)
    ensures (forall i :: 0 <= i < |vars| ==> !Contains(text, Placeholder(vars[i].0))) ==> r == text
    decreases |vars|
  {
    if |vars| == 0 then text
    else Substitute(ReplaceAll(text, Placeholder(vars[0].0), vars[0].1), vars[1..])
  }

  const LoadFailure := "Failed to load prompt: "

  /** `loadPrompt(promptName, variables)`: the named template from the
      store, its placeholders filled in; a missing template is an error that
      names it. */
  function LoadPrompt(name: string, store: map<string, string>, vars: seq<(string, string)>): (r: Result<string, string>)
    requires forall i :: 0 <= i < |vars| ==> PlainKey(vars[i].0)
    ensures r.Failure? <==> name !in store
    ensures r.Failure? ==> r.error == LoadFailure + name
    ensures r.Success? ==> r.value == Substitute(store[name], vars)
  {
    if name in store then Success(Substitute(store[name], vars)) else Failure(LoadFailure + name)
  }

  // ---------------------------------------------------------------------
  // Properties
  // ---------------------------------------------------------------------

  /** Replacing with a value without `$` is splitting at the placeholder
      and joining with the value. */
  lemma {:induction false} ReplaceFromIsSplitJoin(s: string, p: string, v: string, i: nat)
    requires |p| > 0 && i <= |s|
    requires '$' !in v
    ensures ReplaceFrom(s, p, v, i) == Join(Split(s[i..], p), v)
    decreases |s| - i
  {
    if p <= s[i..] {
      ReplaceFromIsSplitJoin(s, p, v, i + |p|);
      SplitJoinAtMatch(s, p, v, i);
    } else if i == |s| {
      assert s[i..] == "";
    } else {
      ReplaceFromIsSplitJoin(s, p, v, i + 1);
      SplitJoinPastChar(s, p, v, i);
    }
  }

  /** The step at a match: the value, then the rest. */
  lemma SplitJoinAtMatch(s: string, p: string, v: string, i: nat)
    requires |p| > 0 && i <= |s| && '$' !in v && p <= s[i..]
    requires ReplaceFrom(s, p, v, i + |p|) == Join(Split(s[i + |p|..], p), v)
    ensures ReplaceFrom(s, p, v, i) == Join(Split(s[i..], p), v)
  {
    var t := s[i..];
    var rest := Split(s[i + |p|..], p);
    assert t[|p|..] == s[i + |p|..];
    assert Split(t, p) == [""] + rest;
    assert Expand(v, s, i, i + |p|) == v;
    assert ReplaceFrom(s, p, v, i) == v + Join(rest, v);
    JoinAfterEmpty(rest, v);
  }

  /** The step past a character that starts no match. */
  lemma SplitJoinPastChar(s: string, p: string, v: string, i: nat)
    requires |p| > 0 && i < |s| && '$' !in v && !(p <= s[i..])
    requires ReplaceFrom(s, p, v, i + 1) == Join(Split(s[i + 1..], p), v)
    ensures ReplaceFrom(s, p, v, i) == Join(Split(s[i..], p), v)
  {
    var t := s[i..];
    var rest := Split(s[i + 1..], p);
    assert t[1..] == s[i + 1..] && t[0] == s[i];
    assert Split(t, p) == [[s[i]] + rest[0]] + rest[1..];
    assert ReplaceFrom(s, p, v, i) == [s[i]] + Join(rest, v);
    JoinConsChar(s[i], rest, v);
  }

  /** Text without the placeholder is left as it is. */
  lemma {:induction false} ReplaceFromAbsent(s: string, p: string, v: string, i: nat)
    requires |p| > 0 && i <= |s|
    requires !Contains(s[i..], p)
    ensures ReplaceFrom(s, p, v, i) == s[i..]
    decreases |s| - i
  {
    if i < |s| {
      assert s[i..][1..] == s[i + 1..];
      ReplaceFromAbsent(s, p, v, i + 1);
      assert [s[i]] + s[i + 1..] == s[i..];
    }
  }

  /** `$&` writes every match back, so the text comes out unchanged. */
  lemma {:induction false} DollarAmpersandKeepsText(s: string, p: string, i: nat)
    requires |p| > 0 && i <= |s|
    ensures ReplaceFrom(s, p, "$&", i) == s[i..]
    decreases |s| - i
  {
    if p <= s[i..] {
      DollarAmpersandKeepsText(s, p, i + |p|);
      assert s[i..i + |p|] + s[i + |p|..] == s[i..];
    } else if i < |s| {
      DollarAmpersandKeepsText(s, p, i + 1);
      assert [s[i]] + s[i + 1..] == s[i..];
    }
  }

  lemma ReplaceFromLaws(s: string, p: string, v: string)
    requires |p| > 0
    ensures '$' !in v ==> ReplaceFrom(s, p, v, 0) == Join(Split(s[0..], p), v)
    ensures !Contains(s[0..], p) ==> ReplaceFrom(s, p, v, 0) == s[0..]
    ensures v == "$&" ==> ReplaceFrom(s, p, v, 0) == s[0..]
  {
    if '$' !in v {
      ReplaceFromIsSplitJoin(s, p, v, 0);
    }
    if !Contains(s[0..], p) {
      ReplaceFromAbsent(s, p, v, 0);
    }
    if v == "$&" {
      DollarAmpersandKeepsText(s, p, 0);
    }
  }

  /** Substituting one list of entries after another is substituting their
      concatenation: entries apply in order. */
  lemma {:induction false} SubstituteAppend(text: string, a: seq<(string, string)>, b: seq<(string, string)>)
    requires forall i :: 0 <= i < |a| ==> PlainKey(a[i].0)
    requires forall i :: 0 <= i < |b| ==> PlainKey(b[i].0)
    ensures forall i :: 0 <= i < |a + b| ==> PlainKey((a + b)[i].0)
    ensures Substitute(text, a + b) == Substitute(Substitute(text, a), b)
    decreases |a|
  {
    if |a| == 0 {
      assert a + b == b;
    } else {
      assert (a + b)[0] == a[0] && (a + b)[1..] == a[1..] + b;
      SubstituteAppend(ReplaceAll(text, Placeholder(a[0].0), a[0].1), a[1..], b);
    }
  }

  /** With one variable whose value holds no `$`, every placeholder is
      replaced by the value and nothing else changes. */
  lemma LoadOneVariable(name: string, store: map<string, string>, key: string, value: string)
    requires name in store && PlainKey(key) && '$' !in value
    ensures LoadPrompt(name, store, [(key, value)])
      == Success(Join(Split(store[name], Placeholder(key)), value))
  {
    var vars := [(key, value)];
    assert vars[1..] == [];
    assert Substitute(store[name], vars)
      == Substitute(ReplaceAll(store[name], Placeholder(key), value), []);
  }

  /** A text that is exactly the placeholder becomes exactly the value. */
  lemma ReplaceWhole(p: string, v: string)
    requires |p| > 0 && '$' !in v
    ensures ReplaceAll(p, p, v) == v
  {
    assert p[0..] == p;
    assert ReplaceFrom(p, p, v, |p|) == "";
  }

  /** A placeholder holds no `$`, so it can be a value inserted as it is. */
  lemma PlaceholderPlain(key: string)
    requires PlainKey(key)
    ensures '$' !in Placeholder(key)
  {
    assert forall i :: 0 <= i < |key| ==> key[i] != '$' by {
      forall i | 0 <= i < |key| ensures key[i] != '$' {
        assert KeyChar(key[i]);
      }
    }
  }

  /** Entries apply in order: a value may introduce a placeholder that a
      later entry fills in. */
  lemma SubstituteChains(a: string, b: string, x: string)
    requires PlainKey(a) && PlainKey(b) && '$' !in x
    ensures Substitute(Placeholder(a), [(a, Placeholder(b)), (b, x)]) == x
  {
    var vars := [(a, Placeholder(b)), (b, x)];
    PlaceholderPlain(b);
    ReplaceWhole(Placeholder(a), Placeholder(b));
    assert Substitute(Placeholder(a), vars) == Substitute(Placeholder(b), vars[1..]);
    ReplaceWhole(Placeholder(b), x);
    assert vars[1..][1..] == [];
    assert Substitute(Placeholder(b), vars[1..]) == Substitute(x, []);
  }
}

=== FILE: query_analyzer.dfy ===
/** The query analyzer: asks the language model to turn a question into an
    intent record, strips Markdown code fences from the reply, parses it and
    validates it. */
module QueryAnalyzer {
  import opened Wrappers
  import opened Strings
  import opened Json
  import opened Intents
  import opened PromptLoader
  import opened LanguageModel

  /** What `JSON.parse` yields, as far as the analyzer looks at it: `null`,
      another non-object value (whose properties all read as `undefined`),
      or an object with the four fields it reads. */
  datatype Parsed =
    | ParsedNull
    | ParsedOther
    | ParsedObject(
        intent: Option<string>,
        resourceType: Option<string>,
        resourceName: Option<string>,
        parameters: Option<map<string, string>>)

  /** `JSON.parse`: the parsed value, or the message of the `SyntaxError`. */
  type Parser = string -> Result<Parsed, string>

  const AnalyzerPrompt := "query-analyzer"
  const AnalyzerSettings := Settings(10, 500, 95)

  const AnalysisFailure := "Query analysis failed: "
  const EmptyReply := "OpenAI returned empty response"
  const ParseFailure := "Failed to parse query analysis: "
  const MissingFields := "Invalid analysis result: missing required fields (intent or resourceType)"
  const NullAccess := "Cannot read properties of null (reading 'intent')"

  const JsonFence := "```json"
  const Fence := "```"

  /** `s.replace(/p\n?/g, '')`: every occurrence of `p` is removed together
      with one line break right after it. */
  function StripAll(s: string, p: string): (r: string)
    requires |p| > 0
    ensures |r| <= |s|
    ensures !Contains(s, p) ==> r == s
    decreases |s|
  {
    if p <= s then
      if |s| > |p| && s[|p|] == '\n' then StripAll(s[|p| + 1..], p) else StripAll(s[|p|..], p)
    else if |s| == 0 then ""
    else
      assert [s[0]] + s[1..] == s;
      [s[0]] + StripAll(s[1..], p)
  }

  /** The fence removal before parsing: the json fences, then the bare ones,
      then surrounding white space. Text without backticks is only trimmed. */
  function CleanFences(text: string): (r: string)
    ensures '`' !in text ==> r == Trim(text)
  {
    PlainTextUnfenced(text);
    Trim(StripAll(StripAll(text, JsonFence), Fence))
  }

  /** `response.choices[0]?.message?.content?.trim()`, when truthy. */
  function ReplyText(content: Option<string>): (t: Option<string>)
    ensures t.Some? <==> content.Some? && Trim(content.value) != ""
    ensures t.Some? ==> t.value == Trim(content.value)
  {
    match content
    case Some(c) => if Trim(c) != "" then Some(Trim(c)) else None
    case None => None
  }

  /** The validation and defaulting after the parse: `intent` and
      `resourceType` must be truthy, `parameters` defaults to `{}`, and a
      missing name becomes `unknown` unless the type is `generic`. */
  function Interpret(p: Parsed): (r: Result<Analysis, string>)
    ensures p.ParsedNull? ==> r == Failure(NullAccess)
    ensures p.ParsedOther? ==> r == Failure(MissingFields)
    ensures p.ParsedObject? ==>
      (r.Success? <==> Present(p.intent) && Present(p.resourceType))
    ensures p.ParsedObject? && r.Failure? ==> r.error == MissingFields
    ensures r.Success? ==> WellFormed(r.value)
    ensures r.Success? ==>
      && r.value.intent == p.intent.value
      && r.value.resourceType == p.resourceType.value
      && r.value.parameters == p.parameters.GetOr(map[])
    ensures r.Success? && Present(p.resourceName) ==> r.value.resourceName == p.resourceName
    ensures r.Success? && p.resourceType.value == "generic" ==> r.value.resourceName == p.resourceName
    ensures r.Success? && p.resourceType.value != "generic" && !Present(p.resourceName) ==>
      r.value.resourceName == Some("unknown")
  {
    match p
    case ParsedNull => Failure(NullAccess)
    case ParsedOther => Failure(MissingFields)
    case ParsedObject(intent, resourceType, name, parameters) =>
      if !Present(intent) || !Present(resourceType) then Failure(MissingFields)
      else
        var name' := if !Present(name) && resourceType.value != "generic" then Some("unknown") else name;
        Success(Analysis(intent.value, resourceType.value, name', parameters.GetOr(map[])))
  }

  /** The parse of the cleaned text, then validation. */
  function Decode(cleaned: string, parse: Parser): (r: Result<Analysis, string>)
    ensures r.Success? ==> WellFormed(r.value)
    ensures parse(cleaned).Failure? ==> r == Failure(ParseFailure + parse(cleaned).error)
  {
    match parse(cleaned)
    case Failure(e) => Failure(ParseFailure + e)
    case Success(p) => Interpret(p)
  }

  /** Everything after the model's reply arrived. */
  function Read(content: Option<string>, parse: Parser): (r: Result<Analysis, string>)
    ensures ReplyText(content).None? ==> r == Failure(EmptyReply)
    ensures ReplyText(content).Some? ==> r == Decode(CleanFences(ReplyText(content).value), parse)
    ensures r.Success? ==> WellFormed(r.value)
  {
    match ReplyText(content)
    case None => Failure(EmptyReply)
    case Some(text) => Decode(CleanFences(text), parse)
  }

  /** The request the analyzer sends for a question. */
  function AnalyzerRequest(system: string, query: string): Request {
    Request(system, query, AnalyzerSettings)
  }

  /** `analyzeQuery(query)`: every error on the way, from loading the
      prompt to validating the record, comes out under one prefix. */
  function AnalyzeQuery(query: string, store: map<string, string>, model: Model, parse: Parser)
    : (r: Result<Analysis, string>)
    ensures r.Success? ==> WellFormed(r.value)
    ensures r.Failure? ==> AnalysisFailure <= r.error
    ensures AnalyzerPrompt !in store ==> r == Failure(AnalysisFailure + (LoadFailure + AnalyzerPrompt))
    ensures AnalyzerPrompt in store ==>
      var reply := model(AnalyzerRequest(store[AnalyzerPrompt], query));
      && (reply.CallFailed? ==> r == Failure(AnalysisFailure + reply.message))
      && (reply.Reply? ==> r == Read(reply.content, parse).MapFailure((e: string) => AnalysisFailure + e))
  {
    match LoadPrompt(AnalyzerPrompt, store, [])
    case Failure(e) => Failure(AnalysisFailure + e)
    case Success(system) =>
      match model(AnalyzerRequest(system, query))
      case CallFailed(e) => Failure(AnalysisFailure + e)
      case Reply(content) => Read(content, parse).MapFailure((e: string) => AnalysisFailure + e)
  }

  // ---------------------------------------------------------------------
  // Properties
  // ---------------------------------------------------------------------

  /** Text without backticks passes through the fence removal untouched. */
  lemma {:induction false} StripAfterPlain(a: string, b: string, p: string)
    requires |p| > 0 && p[0] == '`' && '`' !in a
    ensures StripAll(a + b, p) == a + StripAll(b, p)
    decreases |a|
  {
    if |a| > 0 {
      assert (a + b)[0] == a[0] != '`';
      assert !(p <= a + b);
      assert (a + b)[1..] == a[1..] + b;
      StripAfterPlain(a[1..], b, p);
      assert [a[0]] + a[1..] == a;
    } else {
      assert a + b == b;
    }
  }

  lemma PlainTextUnfenced(text: string)
    ensures '`' !in text ==> StripAll(StripAll(text, JsonFence), Fence) == text
  {
    if '`' !in text {
      StripAfterPlain(text, "", JsonFence);
      StripAfterPlain(text, "", Fence);
      assert text + "" == text;
    }
  }

  /** A reply fenced as a json code block reads as its contents. */
  lemma CleanJsonFenced(json: string)
    requires '`' !in json
    ensures CleanFences(JsonFence + "\n" + json + "\n" + Fence) == Trim(json)
  {
    var body := json + "\n";
    var s := JsonFence + "\n" + json + "\n" + Fence;
    assert JsonFence <= s && s[|JsonFence|] == '\n';
    assert s[|JsonFence| + 1..] == body + Fence;
    assert '`' !in body;
    StripAfterPlain(body, Fence, JsonFence);
    assert StripAll(Fence, JsonFence) == Fence by {
      assert Fence[1..] == "``" && Fence[1..][1..] == "`" && Fence[1..][1..][1..] == "";
    }
    StripAfterPlain(body, Fence, Fence);
    assert StripAll(Fence, Fence) == "" by {
      assert Fence[|Fence|..] == "";
    }
    assert body + "" == body;
    TrimDropsTrailingSpace(json, '\n');
  }

  lemma FencedText(json: string)
    requires '`' !in json
    ensures var fenced := JsonFence + "\n" + json + "\n" + Fence;
      ReplyText(Some(fenced)) == Some(fenced) && CleanFences(fenced) == Trim(json)
  {
    var fenced := JsonFence + "\n" + json + "\n" + Fence;
    assert fenced[0] == '`' && fenced[|fenced| - 1] == '`';
    TrimKeeps(fenced);
    CleanJsonFenced(json);
  }

  lemma BareText(json: string)
    requires '`' !in json && Trim(json) != ""
    ensures ReplyText(Some(json)) == Some(Trim(json)) && CleanFences(Trim(json)) == Trim(json)
  {
    TrimIsInfix(json);
    TrimIdempotent(json);
  }

  /** The fenced and the bare form of the same JSON text read alike. */
  lemma FencedReadsAsBare(json: string, parse: Parser)
    requires '`' !in json && Trim(json) != ""
    ensures Read(Some(JsonFence + "\n" + json + "\n" + Fence), parse) == Read(Some(json), parse)
  {
    FencedText(json);
    BareText(json);
  }

  /** A model that wraps its JSON in a code fence yields the same analysis as
      one that answers with the bare JSON. */
  lemma FencedReplyAnalyzesAsBare(query: string, store: map<string, string>, fencing: Model, bare: Model,
                                  parse: Parser, json: string)
    requires AnalyzerPrompt in store
    requires '`' !in json && Trim(json) != ""
    requires fencing(AnalyzerRequest(store[AnalyzerPrompt], query))
      == Reply(Some(JsonFence + "\n" + json + "\n" + Fence))
    requires bare(AnalyzerRequest(store[AnalyzerPrompt], query)) == Reply(Some(json))
    ensures AnalyzeQuery(query, store, fencing, parse) == AnalyzeQuery(query, store, bare, parse)
  {
    FencedReadsAsBare(json, parse);
  }
}

=== FILE: query_handler.dfy ===
/** The request pipeline: analyse the question, run the resource query,
    and phrase the answer — through the language model when it answers, by
    a fixed plain-text layout of the data when it does not. */
module QueryHandler {
  import opened Wrappers
  import opened Strings
  import opened Json
  import opened Intents
  import opened PromptLoader
  import opened LanguageModel
  import opened QueryAnalyzer
  import opened ResourceClient
  import opened BasicFormat

  // ---------------------------------------------------------------------
  // Phrasing the answer
  // ---------------------------------------------------------------------

  const ResponsePrompt := "response-generator"
  const ResponseSettings := Settings(70, 800, 95)
  const NotFoundPreface := "I couldn't find the information you requested. "
  const DataPreface := "Here is the data from Azure:\n"

  /** `azureResult.error`, or the empty string when there is none. */
  function ErrorText(r: QueryResult): string {
    if r.Err? then r.error else ""
  }

  /** `azureResult.data`: absent from an error result. */
  function DataOf(r: QueryResult): Value {
    if r.Ok? then r.data else Undefined
  }

  /** The user turn: the data as JSON indented by two spaces, or the word
      `undefined` when there is no data. */
  function DataContext(data: Value): (t: string)
    ensures DataPreface <= t
  {
    DataPreface + (match Stringify(data, "  ") case Some(j) => j case None => "undefined")
  }

  function ResponseRequest(system: string, data: Value): Request {
    Request(system, DataContext(data), ResponseSettings)
  }

  /** `generateResponse(originalQuery, analysis, azureResult)`. A truthy
      error is reported as it is; otherwise the model is asked to phrase the
      data, and any failure on that path — a missing prompt, a failed call,
      a reply without content — falls back to the plain layout. */
  function GenerateResponse(query: string, r: QueryResult, store: map<string, string>, model: Model)
    : (res: string)
    ensures ErrorText(r) != "" ==> res == NotFoundPreface + ErrorText(r)
    ensures ErrorText(r) == "" && ResponsePrompt !in store ==> res == FormatBasicResponse(DataOf(r))
    ensures ErrorText(r) == "" && ResponsePrompt in store ==>
      var reply := model(ResponseRequest(Substitute(store[ResponsePrompt], [("originalQuery", query)]), DataOf(r)));
      && (reply.Reply? && reply.content.Some? ==> res == Trim(reply.content.value))
      && (!(reply.Reply? && reply.content.Some?) ==> res == FormatBasicResponse(DataOf(r)))
  {
    if ErrorText(r) != "" then NotFoundPreface + ErrorText(r)
    else
      assert PlainKey("originalQuery");
      match LoadPrompt(ResponsePrompt, store, [("originalQuery", query)])
      case Failure(_) => FormatBasicResponse(DataOf(r))
      case Success(system) =>
        match model(ResponseRequest(system, DataOf(r)))
        case Reply(Some(content)) => Trim(content)
        case _ => FormatBasicResponse(DataOf(r))
  }

  // ---------------------------------------------------------------------
  // The pipeline
  // ---------------------------------------------------------------------

  /** `{ response, source, analysis }`, or `{ response, source, error }`. */
  datatype Answer = Answer(response: string, source: string, analysis: Option<Analysis>, error: Option<string>)

  const ErrorSource := "Error Handler"

  function Apology(message: string): string {
    "I encountered an error while processing your query: " + message
      + ". Please try rephrasing your question or check if the resource name is correct."
  }

  /** `azureResult.source || 'Azure Resource Manager'` */
  function SourceOf(r: QueryResult): (s: string)
    ensures s != ""
    ensures r.Ok? && Present(r.source) ==> s == r.source.value
    ensures !(r.Ok? && Present(r.source)) ==> s == DefaultSource
  {
    if r.Ok? && Present(r.source) then r.source.value else DefaultSource
  }

  /** The answer to an analysed question, given the resource query's result:
      the phrased response, the result's source, and the analysis. */
  function Phrase(query: string, store: map<string, string>, model: Model, a: Analysis, r: QueryResult)
    : (ans: Answer)
    ensures ans.error.None? && ans.analysis == Some(a) && ans.source != ""
    ensures ans.response == GenerateResponse(query, r, store, model) && ans.source == SourceOf(r)
  {
    Answer(GenerateResponse(query, r, store, model), SourceOf(r), Some(a), None)
  }

  /** The resource query, as the pipeline calls it: defined on every
      well-formed analysis. */
  type Executor = Analysis --> QueryResult

  ghost predicate Accepts(execute: Executor) {
    forall a :: WellFormed(a) ==> execute.requires(a)
  }

  /** `queryAzureInfrastructure(query)` with the resource query as a
      parameter: the query runs only on a successful analysis, and an
      analysis failure becomes an apology that carries its message. The same
      model serves both calls. */
  function Pipeline(query: string, store: map<string, string>, model: Model, parse: Parser,
                    execute: Executor): (ans: Answer)
    requires Accepts(execute)
    ensures ans.error.Some? <==> AnalyzeQuery(query, store, model, parse).Failure?
    ensures ans.error.Some? ==> ans.source == ErrorSource && ans.analysis.None?
    ensures match AnalyzeQuery(query, store, model, parse)
      case Failure(m) => ans == Answer(Apology(m), ErrorSource, None, Some(m))
      case Success(a) => ans == Phrase(query, store, model, a, execute(a))
  {
    match AnalyzeQuery(query, store, model, parse)
    case Failure(m) => Answer(Apology(m), ErrorSource, None, Some(m))
    case Success(a) => Phrase(query, store, model, a, execute(a))
  }

  /** The directory's resource query, as the pipeline calls it. */
  function DirectoryQuery(ctx: Context): (execute: Executor)
    ensures Accepts(execute)
    ensures forall a :: WellFormed(a) ==> execute(a) == ExecuteAzureQuery(ctx, a)
  {
    (a: Analysis) requires WellFormed(a) => ExecuteAzureQuery(ctx, a)
  }

  /** `queryAzureInfrastructure(query)` against the resource directory. */
  function QueryAzureInfrastructure(query: string, ctx: Context, store: map<string, string>,
                                    model: Model, parse: Parser): (ans: Answer)
    ensures ans.error.Some? <==> AnalyzeQuery(query, store, model, parse).Failure?
    ensures ans.error.Some? ==> ans.source == ErrorSource && ans.analysis.None?
    ensures match AnalyzeQuery(query, store, model, parse)
      case Failure(m) => ans == Answer(Apology(m), ErrorSource, None, Some(m))
      case Success(a) => ans == Phrase(query, store, model, a, ExecuteAzureQuery(ctx, a))
  {
    var execute := DirectoryQuery(ctx);
    var analysis := AnalyzeQuery(query, store, model, parse);
    assert analysis.Success? ==> execute(analysis.value) == ExecuteAzureQuery(ctx, analysis.value);
    Pipeline(query, store, model, parse, execute)
  }

  // ---------------------------------------------------------------------
  // Properties
  // ---------------------------------------------------------------------

  /** A reported error does not depend on the model or the prompt store. */
  lemma ErrorAnswerIgnoresModel(query: string, r: QueryResult, store: map<string, string>, model: Model,
                                store': map<string, string>, model': Model)
    requires ErrorText(r) != ""
    ensures GenerateResponse(query, r, store, model) == GenerateResponse(query, r, store', model')
    ensures NotFoundPreface <= GenerateResponse(query, r, store, model)
  {
  }

  /** When every call fails, the answer is the plain layout of the data. */
  lemma FailingModelFallsBack(query: string, r: QueryResult, store: map<string, string>, model: Model)
    requires ErrorText(r) == ""
    requires forall q :: model(q).CallFailed?
    ensures GenerateResponse(query, r, store, model) == FormatBasicResponse(DataOf(r))
  {
  }

  /** Every answer names a source and, on failure, says the analysis failed. */
  lemma AnswerShape(query: string, store: map<string, string>, model: Model, parse: Parser, execute: Executor)
    requires Accepts(execute)
    ensures var ans := Pipeline(query, store, model, parse, execute);
      && ans.source != ""
      && (ans.error.Some? ==> AnalysisFailure <= ans.error.value)
      && (ans.analysis.Some? ==> WellFormed(ans.analysis.value))
  {
  }

  /** Without the analyzer prompt the pipeline stops at the analysis and
      apologises, naming the missing prompt; the resource query never runs. */
  lemma MissingAnalyzerPrompt(query: string, store: map<string, string>, model: Model, parse: Parser,
                              execute: Executor)
    requires Accepts(execute)
    requires AnalyzerPrompt !in store
    ensures Pipeline(query, store, model, parse, execute).error
      == Some(AnalysisFailure + (LoadFailure + AnalyzerPrompt))
    ensures Pipeline(query, store, model, parse, execute).source == ErrorSource
    ensures Pipeline(query, store, model, parse, execute).response
      == Apology(AnalysisFailure + (LoadFailure + AnalyzerPrompt))
    ensures Pipeline(query, store, model, parse, execute).analysis.None?
  {
    assert AnalyzeQuery(query, store, model, parse) == Failure(AnalysisFailure + (LoadFailure + AnalyzerPrompt));
  }

  /** A resource query that fails with a message, after a successful
      analysis, reaches the user as that message, under the default source. */
  lemma ResourceErrorReported(query: string, store: map<string, string>, model: Model, parse: Parser,
                              execute: Executor)
    requires Accepts(execute)
    requires AnalyzeQuery(query, store, model, parse).Success?
    requires execute(AnalyzeQuery(query, store, model, parse).value).Err?
    requires execute(AnalyzeQuery(query, store, model, parse).value).error != ""
    ensures var e := execute(AnalyzeQuery(query, store, model, parse).value).error;
      var ans := Pipeline(query, store, model, parse, execute);
      && ans.response == NotFoundPreface + e
      && ans.source == DefaultSource
      && ans.error.None?
  {
  }
}

=== FILE: resource_client.dfy ===
/** The resource router: resolves the resource groups to search, dispatches
    an analysis to the handler for its resource type, and shapes what the
    handler finds into a result record. */
module ResourceClient {
  import opened Wrappers
  import opened Strings
  import opened Json
  import opened Search
  import opened Cloud
  import opened Intents

  /** The clients the router talks to, and the `RESOURCE_GROUPS` allow-list. */
  datatype Context = Context(directory: Directory, configuredGroups: Option<string>)

  /** `{ data, source? }` on success, `{ error }` otherwise. */
  datatype QueryResult = Ok(data: Value, source: Option<string>) | Err(error: string)

  const DefaultSource := "Azure Resource Manager"

  // ---------------------------------------------------------------------
  // Resource-group resolution
  // ---------------------------------------------------------------------

  function TrimAll(parts: seq<string>): (r: seq<string>)
    ensures |r| == |parts|
    ensures forall i :: 0 <= i < |parts| ==> r[i] == Trim(parts[i])
  {
    seq(|parts|, i requires 0 <= i < |parts| => Trim(parts[i]))
  }

  /** `RESOURCE_GROUPS.split(',').map(rg => rg.trim())`: one entry per
      comma-separated piece, white space trimmed, empty pieces kept. */
  function ConfiguredGroups(list: string): (groups: seq<string>)
    ensures |groups| == |Split(list, ",")| == Count(list, ',') + 1
    ensures forall i :: 0 <= i < |groups| ==> groups[i] == Trim(Split(list, ",")[i])
  {
    SplitCharCount(list, ',');
    TrimAll(Split(list, ","))
  }

  /** `getResourceGroups(specificRg)`: an explicit group, else the
      comma-separated allow-list, else every group of the subscription. */
  function ResolveGroups(ctx: Context, explicit: Option<string>): (r: Result<seq<string>, Error>)
    ensures Present(explicit) ==> r == Success([explicit.value])
    ensures !Present(explicit) && Present(ctx.configuredGroups) ==>
      r == Success(ConfiguredGroups(ctx.configuredGroups.value))
    ensures !Present(explicit) && !Present(ctx.configuredGroups) ==>
      && (r.Success? <==> ctx.directory.enumerationFailure.None?)
      && (r.Success? ==> r.value == GroupNames(ctx.directory))
      && (r.Failure? ==> r.error == ctx.directory.enumerationFailure.value)
  {
    if Present(explicit) then Success([explicit.value])
    else if Present(ctx.configuredGroups) then Success(ConfiguredGroups(ctx.configuredGroups.value))
    else
      match ctx.directory.enumerationFailure
      case Some(e) => Failure(e)
      case None => Success(GroupNames(ctx.directory))
  }

  // ---------------------------------------------------------------------
  // The shared search: resolve the groups, scan them, shape the first hit
  // ---------------------------------------------------------------------

  /** A step that never stops never aborts the scan of resolved groups. */
  lemma ResolvedScanNeverAborts<T>(groups: Result<seq<string>, Error>, step: string -> Step<T, Error>)
    requires forall g :: !step(g).Stop?
    ensures groups.Success? ==> !Scan(groups.value, step).Aborted?
  {
    if groups.Success? {
      ScanNeverAborts(groups.value, step);
    }
  }

  /** One handler's body: resolution errors and errors the scan rethrows
      become `failure + message`; exhausting the groups gives `notFound`. */
  function Locate<T>(ctx: Context, explicit: Option<string>, step: string -> Step<T, Error>,
                     shape: (string, T) -> Value, failure: string, notFound: string): (r: QueryResult)
    ensures ResolveGroups(ctx, explicit).Failure? ==>
      r == Err(failure + ResolveGroups(ctx, explicit).error.message)
    ensures r.Ok? ==> r.source.None?
    ensures r.Err? ==> r.error == notFound || failure <= r.error
  {
    match ResolveGroups(ctx, explicit)
    case Failure(e) => Err(failure + e.message)
    case Success(groups) =>
      match Scan(groups, step)
      case Hit(i, x) => Ok(shape(groups[i], x), None)
      case Exhausted => Err(notFound)
      case Aborted(_, e) => Err(failure + e.message)
  }

  /** How the direct-`get` handlers read one group's answer: a 404 moves on,
      any other error is rethrown. */
  function GetStep<T>(r: Result<T, Error>): (s: Step<T, Error>)
    ensures s.Take? <==> r.Success?
    ensures s.Take? ==> s.item == r.value
    ensures s.Skip? <==> r.Failure? && IsNotFound(r.error)
    ensures s.Stop? ==> s.error == r.error
  {
    match r
    case Success(x) => Take(x)
    case Failure(e) => if IsNotFound(e) then Skip else Stop(e)
  }

  /** A quoted name inside a message. */
  function Quoted(prefix: string, name: string, suffix: string): (m: string)
    ensures Contains(m, name)
  {
    var m := prefix + "'" + name + "'" + suffix;
    assert (prefix + "'" + name + "'" + suffix)[|prefix| + 1..] == name + "'" + suffix;
    ContainsAt(m, name, |prefix| + 1);
    m
  }

  // ---------------------------------------------------------------------
  // Virtual machines
  // ---------------------------------------------------------------------

  predicate IsPowerState(s: InstanceStatus) {
    "PowerState/" <= s.code
  }

  /** Index `i` holds the first power-state entry of `statuses`. */
  predicate FirstPowerStatus(statuses: seq<InstanceStatus>, i: int) {
    && 0 <= i < |statuses|
    && IsPowerState(statuses[i])
    && forall j :: 0 <= j < i ==> !IsPowerState(statuses[j])
  }

  /** `statuses.find(s => s.code.startsWith('PowerState/'))?.displayStatus || 'Unknown'` */
  function PowerState(statuses: seq<InstanceStatus>): (r: string)
    ensures forall i :: FirstPowerStatus(statuses, i) && Present(statuses[i].displayStatus) ==>
      r == statuses[i].displayStatus.value
    ensures forall i :: FirstPowerStatus(statuses, i) && !Present(statuses[i].displayStatus) ==>
      r == "Unknown"
    ensures (forall i :: 0 <= i < |statuses| ==> !IsPowerState(statuses[i])) ==> r == "Unknown"
  {
    var k := FindFirst(statuses, IsPowerState);
    if k < |statuses| && Present(statuses[k].displayStatus) then statuses[k].displayStatus.value
    else "Unknown"
  }

  const StatusKeys := ["name", "resourceGroup", "powerState", "provisioningState", "location"]
  const ConfigurationKeys := ["name", "resourceGroup", "vmSize", "osType", "location", "tags"]
  const FullVmKeys :=
    ["name", "resourceGroup", "vmSize", "location", "powerState", "provisioningState", "osType", "tags"]

  /** The record `queryVirtualMachine` returns for `vm` found in group `rg`. */
  function ShapeVirtualMachine(intent: string, rg: string, vm: VirtualMachine): (v: Value)
    ensures v.Obj?
    ensures intent == "get_status" ==> Keys(v.fields) == StatusKeys
    ensures intent == "get_configuration" ==> Keys(v.fields) == ConfigurationKeys
    ensures intent != "get_status" && intent != "get_configuration" ==> Keys(v.fields) == FullVmKeys
    ensures v.fields[0].val == Str(vm.name) && v.fields[1].val == Str(rg)
    ensures intent == "get_status" ==> v.fields[2].val == Str(PowerState(vm.statuses))
    ensures intent != "get_status" && intent != "get_configuration" ==>
      v.fields[4].val == Str(PowerState(vm.statuses))
    ensures intent == "get_status" ==>
      v.fields[3].val == vm.provisioningState && v.fields[4].val == vm.location
    ensures intent == "get_configuration" ==>
      && v.fields[2].val == vm.vmSize && v.fields[3].val == vm.osType
      && v.fields[4].val == vm.location && v.fields[5].val == vm.tags
    ensures intent != "get_status" && intent != "get_configuration" ==>
      && v.fields[2].val == vm.vmSize && v.fields[3].val == vm.location
      && v.fields[5].val == vm.provisioningState && v.fields[6].val == vm.osType
      && v.fields[7].val == vm.tags
  {
    var power := Field("powerState", Str(PowerState(vm.statuses)));
    if intent == "get_status" then
      Obj([Field("name", Str(vm.name)), Field("resourceGroup", Str(rg)), power,
           Field("provisioningState", vm.provisioningState), Field("location", vm.location)])
    else if intent == "get_configuration" then
      Obj([Field("name", Str(vm.name)), Field("resourceGroup", Str(rg)), Field("vmSize", vm.vmSize),
           Field("osType", vm.osType), Field("location", vm.location), Field("tags", vm.tags)])
    else
      Obj([Field("name", Str(vm.name)), Field("resourceGroup", Str(rg)), Field("vmSize", vm.vmSize),
           Field("location", vm.location), power, Field("provisioningState", vm.provisioningState),
           Field("osType", vm.osType), Field("tags", vm.tags)])
  }

  function VirtualMachineStep(dir: Directory, name: string): string -> Step<VirtualMachine, Error> {
    (rg: string) => GetStep(GetVirtualMachine(dir, rg, name))
  }

  function VirtualMachineShape(intent: string): (string, VirtualMachine) -> Value {
    (rg: string, vm: VirtualMachine) => ShapeVirtualMachine(intent, rg, vm)
  }

  function VirtualMachineMissing(name: string): (m: string)
    ensures Contains(m, name)
  {
    Quoted("Virtual Machine ", name, " not found in any accessible resource group")
  }

  /** `queryVirtualMachine(vmName, intent, parameters)` */
  function QueryVirtualMachine(ctx: Context, name: string, intent: string,
                               parameters: map<string, string>): (r: QueryResult)
    ensures ResolveGroups(ctx, Param(parameters, "resourceGroup")).Failure? ==>
      r == Err("Failed to query VM: " + ResolveGroups(ctx, Param(parameters, "resourceGroup")).error.message)
    ensures r.Ok? ==> r.source.None?
    ensures r.Err? ==> r.error == VirtualMachineMissing(name) || "Failed to query VM: " <= r.error
  {
    Locate(ctx, Param(parameters, "resourceGroup"), VirtualMachineStep(ctx.directory, name),
           VirtualMachineShape(intent), "Failed to query VM: ", VirtualMachineMissing(name))
  }

  // ---------------------------------------------------------------------
  // SQL databases
  // ---------------------------------------------------------------------

  predicate DatabaseNamed(db: Database, name: string) {
    SameIgnoringCase(db.name, name)
  }

  /** The position of the first database a server delivers under `name`,
      ignoring case. */
  function DatabaseIndex(server: SqlServer, name: string): nat {
    FindFirst(server.databases.items, (d: Database) => DatabaseNamed(d, name))
  }

  predicate ServerHolds(server: SqlServer, name: string) {
    DatabaseIndex(server, name) < |server.databases.items|
  }

  /** The first server, in listing order, delivering a database of that
      name, and that database. */
  function FindDatabase(servers: seq<SqlServer>, name: string): (hit: Option<(SqlServer, Database)>)
    ensures hit.None? <==> forall s :: s in servers ==> !ServerHolds(s, name)
    ensures hit.Some? ==>
      exists k :: 0 <= k < |servers| && hit.value.0 == servers[k] &&
        forall j :: 0 <= j < k ==> !ServerHolds(servers[j], name)
    ensures hit.Some? ==> hit.value.1 in hit.value.0.databases.items && DatabaseNamed(hit.value.1, name)
    ensures hit.Some? ==>
      && ServerHolds(hit.value.0, name)
      && hit.value.1 == hit.value.0.databases.items[DatabaseIndex(hit.value.0, name)]
    ensures hit.Some? ==> forall j :: 0 <= j < DatabaseIndex(hit.value.0, name) ==>
      !DatabaseNamed(hit.value.0.databases.items[j], name)
  {
    var k := FindFirst(servers, (s: SqlServer) => ServerHolds(s, name));
    if k < |servers| then Some((servers[k], servers[k].databases.items[DatabaseIndex(servers[k], name)]))
    else None
  }

  /** Within one group: the database `FindDatabase` finds among the servers
      listed; servers whose database listing fails are skipped, as is the
      group when its server listing fails, after the records already
      delivered were examined. */
  function DatabaseStep(dir: Directory, name: string): string -> Step<(SqlServer, Database), Error> {
    (rg: string) =>
      match FindDatabase(ListIn(dir, rg, SqlServersOf).items, name)
      case Some(hit) => Take(hit)
      case None => Skip
  }

  function ShapeDatabase(rg: string, server: SqlServer, db: Database): Value {
    Obj([Field("name", Str(db.name)), Field("serverName", Str(server.name)),
         Field("resourceGroup", Str(rg)), Field("sku", db.skuName), Field("tier", db.tier),
         Field("capacity", db.capacity), Field("status", db.status), Field("location", db.location),
         Field("maxSizeBytes", db.maxSizeBytes), Field("collation", db.collation)])
  }

  function DatabaseShape(): (string, (SqlServer, Database)) -> Value {
    (rg: string, hit: (SqlServer, Database)) => ShapeDatabase(rg, hit.0, hit.1)
  }

  function DatabaseMissing(name: string): (m: string)
    ensures Contains(m, name)
  {
    Quoted("Database ", name, " not found in any accessible resource group")
  }

  /** `queryDatabase(dbName, intent, parameters)` */
  function QueryDatabase(ctx: Context, name: string, parameters: map<string, string>): (r: QueryResult)
    ensures ResolveGroups(ctx, Param(parameters, "resourceGroup")).Failure? ==>
      r == Err("Failed to query database: " + ResolveGroups(ctx, Param(parameters, "resourceGroup")).error.message)
    ensures r.Ok? ==> r.source.None?
    ensures r.Err? ==> r.error == DatabaseMissing(name) || "Failed to query database: " <= r.error
    ensures ResolveGroups(ctx, Param(parameters, "resourceGroup")).Success? && r.Err? ==>
      r.error == DatabaseMissing(name)
  {
    ResolvedScanNeverAborts(ResolveGroups(ctx, Param(parameters, "resourceGroup")), DatabaseStep(ctx.directory, name));
    Locate(ctx, Param(parameters, "resourceGroup"), DatabaseStep(ctx.directory, name),
           DatabaseShape(), "Failed to query database: ", DatabaseMissing(name))
  }

  // ---------------------------------------------------------------------
  // Virtual networks and subnets
  // ---------------------------------------------------------------------

  /** `vnet.subnets?.length || 0` */
  function SubnetCount(vnet: VirtualNetwork): (n: nat)
    ensures vnet.subnets.Some? ==> n == |vnet.subnets.value|
    ensures vnet.subnets.None? ==> n == 0
  {
    if vnet.subnets.Some? then |vnet.subnets.value| else 0
  }

  /** `vnet.subnets?.map(f)`: `undefined` when the network reports no subnet list. */
  function MapSubnets(vnet: VirtualNetwork, f: Subnet -> Value): (v: Value)
    ensures vnet.subnets.None? ==> v == Undefined
    ensures vnet.subnets.Some? ==> v.Arr? && |v.items| == |vnet.subnets.value|
    ensures vnet.subnets.Some? ==> forall i :: 0 <= i < |v.items| ==> v.items[i] == f(vnet.subnets.value[i])
  {
    match vnet.subnets
    case None => Undefined
    case Some(ss) => Arr(seq(|ss|, i requires 0 <= i < |ss| => f(ss[i])))
  }

  /** Whether `queryVirtualNetwork` answers with the subnet breakdown. */
  predicate WantsSubnetBreakdown(intent: string, name: string) {
    intent == "count_resources" || Contains(Lower(name), "subnet")
  }

  /** A subnet in the breakdown: its name, prefix and attached IP configurations. */
  function SubnetDetail(s: Subnet): Value {
    Obj([Field("name", Str(s.name)), Field("addressPrefix", s.addressPrefix),
         Field("resourceCount", Num(s.ipConfigurationCount))])
  }

  /** A subnet in the plain record: its name only. */
  function SubnetName(s: Subnet): Value {
    Str(s.name)
  }

  function ShapeVirtualNetwork(intent: string, name: string, rg: string, vnet: VirtualNetwork): (v: Value)
    ensures v.Obj?
    ensures WantsSubnetBreakdown(intent, name) ==>
      && Keys(v.fields) == ["vnetName", "resourceGroup", "subnetCount", "subnets"]
      && v.fields[0].val == Str(vnet.name)
      && v.fields[1].val == Str(rg)
      && v.fields[2].val == Num(SubnetCount(vnet))
      && v.fields[3].val == MapSubnets(vnet, SubnetDetail)
    ensures !WantsSubnetBreakdown(intent, name) ==>
      && Keys(v.fields) == ["name", "resourceGroup", "location", "addressSpace", "subnetCount", "subnets"]
      && v.fields[0].val == Str(vnet.name)
      && v.fields[1].val == Str(rg)
      && v.fields[2].val == vnet.location
      && v.fields[3].val == vnet.addressPrefixes
      && v.fields[4].val == Num(SubnetCount(vnet))
      && v.fields[5].val == MapSubnets(vnet, SubnetName)
  {
    if WantsSubnetBreakdown(intent, name) then
      Obj([Field("vnetName", Str(vnet.name)), Field("resourceGroup", Str(rg)),
           Field("subnetCount", Num(SubnetCount(vnet))),
           Field("subnets", MapSubnets(vnet, SubnetDetail))])
    else
      Obj([Field("name", Str(vnet.name)), Field("resourceGroup", Str(rg)), Field("location", vnet.location),
           Field("addressSpace", vnet.addressPrefixes), Field("subnetCount", Num(SubnetCount(vnet))),
           Field("subnets", MapSubnets(vnet, SubnetName))])
  }

  function VirtualNetworkStep(dir: Directory, name: string): string -> Step<VirtualNetwork, Error> {
    (rg: string) => GetStep(GetVirtualNetwork(dir, rg, name))
  }

  function VirtualNetworkShape(intent: string, name: string): (string, VirtualNetwork) -> Value {
    (rg: string, vnet: VirtualNetwork) => ShapeVirtualNetwork(intent, name, rg, vnet)
  }

  function VirtualNetworkMissing(name: string): (m: string)
    ensures Contains(m, name)
  {
    Quoted("Virtual Network ", name, " not found")
  }

  /** `queryVirtualNetwork(vnetName, intent, parameters)` */
  function QueryVirtualNetwork(ctx: Context, name: string, intent: string,
                               parameters: map<string, string>): (r: QueryResult)
    ensures ResolveGroups(ctx, Param(parameters, "resourceGroup")).Failure? ==>
      r == Err("Failed to query VNet: " + ResolveGroups(ctx, Param(parameters, "resourceGroup")).error.message)
    ensures r.Ok? ==> r.source.None?
    ensures r.Err? ==> r.error == VirtualNetworkMissing(name) || "Failed to query VNet: " <= r.error
  {
    Locate(ctx, Param(parameters, "resourceGroup"), VirtualNetworkStep(ctx.directory, name),
           VirtualNetworkShape(intent, name), "Failed to query VNet: ", VirtualNetworkMissing(name))
  }

  predicate NetworkNamed(vnet: VirtualNetwork, name: string) {
    SameIgnoringCase(vnet.name, name)
  }

  /** The first listed network of that name, ignoring case. */
  function FindNetwork(vnets: seq<VirtualNetwork>, name: string): (hit: Option<VirtualNetwork>)
    ensures hit.None? <==> forall v :: v in vnets ==> !NetworkNamed(v, name)
    ensures hit.Some? ==>
      exists k :: 0 <= k < |vnets| && hit.value == vnets[k] && NetworkNamed(vnets[k], name) &&
        forall j :: 0 <= j < k ==> !NetworkNamed(vnets[j], name)
  {
    var k := FindFirst(vnets, (v: VirtualNetwork) => NetworkNamed(v, name));
    if k < |vnets| then Some(vnets[k]) else None
  }

  /** Within one group: the network `FindNetwork` finds among those listed;
      a failing listing skips the group. */
  function SubnetStep(dir: Directory, name: string): string -> Step<VirtualNetwork, Error> {
    (rg: string) =>
      match FindNetwork(ListIn(dir, rg, VirtualNetworksOf).items, name)
      case Some(vnet) => Take(vnet)
      case None => Skip
  }

  function ShapeSubnets(rg: string, vnet: VirtualNetwork): (v: Value)
    ensures v.Obj? && Keys(v.fields) == ["vnetName", "resourceGroup", "subnetCount", "subnets"]
    ensures v.fields[0].val == Str(vnet.name) && v.fields[1].val == Str(rg)
    ensures v.fields[2].val == Num(SubnetCount(vnet))
    ensures v.fields[3].val == MapSubnets(vnet, (s: Subnet) =>
      Obj([Field("name", Str(s.name)), Field("addressPrefix", s.addressPrefix)]))
  {
    Obj([Field("vnetName", Str(vnet.name)), Field("resourceGroup", Str(rg)),
         Field("subnetCount", Num(SubnetCount(vnet))),
         Field("subnets", MapSubnets(vnet, (s: Subnet) =>
           Obj([Field("name", Str(s.name)), Field("addressPrefix", s.addressPrefix)])))])
  }

  function SubnetShape(): (string, VirtualNetwork) -> Value {
    (rg: string, vnet: VirtualNetwork) => ShapeSubnets(rg, vnet)
  }

  function SubnetMissing(name: string): (m: string)
    ensures Contains(m, name)
  {
    Quoted("Could not find subnet information for ", name, "")
  }

  /** `querySubnet(vnetName, parameters)` */
  function QuerySubnet(ctx: Context, name: string, parameters: map<string, string>): (r: QueryResult)
    ensures ResolveGroups(ctx, Param(parameters, "resourceGroup")).Failure? ==>
      r == Err("Failed to query subnets: " + ResolveGroups(ctx, Param(parameters, "resourceGroup")).error.message)
    ensures r.Ok? ==> r.source.None?
    ensures r.Err? ==> r.error == SubnetMissing(name) || "Failed to query subnets: " <= r.error
    ensures ResolveGroups(ctx, Param(parameters, "resourceGroup")).Success? && r.Err? ==>
      r.error == SubnetMissing(name)
  {
    ResolvedScanNeverAborts(ResolveGroups(ctx, Param(parameters, "resourceGroup")), SubnetStep(ctx.directory, name));
    Locate(ctx, Param(parameters, "resourceGroup"), SubnetStep(ctx.directory, name),
           SubnetShape(), "Failed to query subnets: ", SubnetMissing(name))
  }

  // ---------------------------------------------------------------------
  // Storage accounts
  // ---------------------------------------------------------------------

  function ShapeStorageAccount(rg: string, account: StorageAccount): Value {
    Obj([Field("name", Str(account.name)), Field("resourceGroup", Str(rg)), Field("sku", account.skuName),
         Field("kind", account.kind), Field("location", account.location),
         Field("provisioningState", account.provisioningState), Field("accessTier", account.accessTier),
         Field("enableHttpsTrafficOnly", account.httpsTrafficOnly)])
  }

  function StorageAccountStep(dir: Directory, name: string): string -> Step<StorageAccount, Error> {
    (rg: string) => GetStep(GetStorageAccount(dir, rg, name))
  }

  function StorageAccountShape(): (string, StorageAccount) -> Value {
    (rg: string, account: StorageAccount) => ShapeStorageAccount(rg, account)
  }

  function StorageAccountMissing(name: string): (m: string)
    ensures Contains(m, name)
  {
    Quoted("Storage Account ", name, " not found")
  }

  /** `queryStorageAccount(storageAccountName, intent, parameters)` */
  function QueryStorageAccount(ctx: Context, name: string, parameters: map<string, string>): (r: QueryResult)
    ensures ResolveGroups(ctx, Param(parameters, "resourceGroup")).Failure? ==>
      r == Err("Failed to query storage account: " + ResolveGroups(ctx, Param(parameters, "resourceGroup")).error.message)
    ensures r.Ok? ==> r.source.None?
    ensures r.Err? ==> r.error == StorageAccountMissing(name) || "Failed to query storage account: " <= r.error
  {
    Locate(ctx, Param(parameters, "resourceGroup"), StorageAccountStep(ctx.directory, name),
           StorageAccountShape(), "Failed to query storage account: ", StorageAccountMissing(name))
  }

  // ---------------------------------------------------------------------
  // Any other resource type
  // ---------------------------------------------------------------------

  /** The TypeError `resourceName.toLowerCase()` raises when the analysis
      carries no resource name. */
  const UndefinedNameError := Error("Cannot read properties of undefined (reading 'toLowerCase')", None)

  predicate ResourceNamed(r: Resource, name: string) {
    SameIgnoringCase(r.name, name)
  }

  /** The first listed resource of that name, ignoring case. */
  function FindResource(items: seq<Resource>, name: string): (hit: Option<Resource>)
    ensures hit.None? <==> forall r :: r in items ==> !ResourceNamed(r, name)
    ensures hit.Some? ==>
      exists k :: 0 <= k < |items| && hit.value == items[k] && ResourceNamed(items[k], name) &&
        forall j :: 0 <= j < k ==> !ResourceNamed(items[j], name)
  {
    var k := FindFirst(items, (r: Resource) => ResourceNamed(r, name));
    if k < |items| then Some(items[k]) else None
  }

  /** Within one group: the resource `FindResource` finds among those
      listed. Nothing catches per group, so a failing listing, or comparing
      against a missing name, ends the whole search. */
  function GenericStep(dir: Directory, name: Option<string>): string -> Step<Resource, Error> {
    (rg: string) =>
      var listing := ListIn(dir, rg, ResourcesOf);
      if name.None? then
        if |listing.items| > 0 then Stop(UndefinedNameError)
        else if listing.failure.Some? then Stop(listing.failure.value)
        else Skip
      else
        match FindResource(listing.items, name.value)
        case Some(r) => Take(r)
        case None => if listing.failure.Some? then Stop(listing.failure.value) else Skip
  }

  function ShapeResource(rg: string, r: Resource): Value {
    Obj([Field("name", Str(r.name)), Field("type", Str(r.resourceType)), Field("resourceGroup", Str(rg)),
         Field("location", r.location), Field("id", r.id)])
  }

  function ResourceShape(): (string, Resource) -> Value {
    (rg: string, r: Resource) => ShapeResource(rg, r)
  }

  /** `${resourceName}` */
  function NameText(name: Option<string>): string {
    Text(OptStr(name))
  }

  function ResourceMissing(name: Option<string>): (m: string)
    ensures Contains(m, NameText(name))
  {
    Quoted("Resource ", NameText(name), " not found")
  }

  /** `queryGenericResource(resourceName, resourceType, intent, parameters)` */
  function QueryGenericResource(ctx: Context, name: Option<string>, parameters: map<string, string>): (r: QueryResult)
    ensures ResolveGroups(ctx, Param(parameters, "resourceGroup")).Failure? ==>
      r == Err("Failed to query resource: " + ResolveGroups(ctx, Param(parameters, "resourceGroup")).error.message)
    ensures r.Ok? ==> r.source.None?
    ensures r.Err? ==> r.error == ResourceMissing(name) || "Failed to query resource: " <= r.error
  {
    Locate(ctx, Param(parameters, "resourceGroup"), GenericStep(ctx.directory, name),
           ResourceShape(), "Failed to query resource: ", ResourceMissing(name))
  }

  // ---------------------------------------------------------------------
  // Resource groups
  // ---------------------------------------------------------------------

  function ResourceSummary(r: Resource): Value {
    Obj([Field("name", Str(r.name)), Field("type", Str(r.resourceType)), Field("location", r.location)])
  }

  /** The record for the listing and counting intents: the number of
      resources, and the resources themselves only when they were asked for. */
  function GroupResourcesRecord(g: Group, items: seq<Resource>, listed: bool): (v: Value)
    ensures v.Obj? && Keys(v.fields) == ["resourceGroup", "location", "resourceCount", "resources"]
    ensures v.fields[2].val == Num(|items|)
    ensures listed <==> v.fields[3].val.Arr?
    ensures !listed ==> v.fields[3].val == Undefined
    ensures listed ==> |v.fields[3].val.items| == |items|
    ensures listed ==> forall i :: 0 <= i < |items| ==> v.fields[3].val.items[i] == ResourceSummary(items[i])
  {
    var resources := seq(|items|, i requires 0 <= i < |items| => ResourceSummary(items[i]));
    Obj([Field("resourceGroup", Str(g.name)), Field("location", g.location),
         Field("resourceCount", Num(|resources|)),
         Field("resources", if listed then Arr(resources) else Undefined)])
  }

  /** The record for every other intent. */
  function GroupRecord(g: Group): (v: Value)
    ensures v.Obj? && Keys(v.fields) == ["name", "location", "provisioningState", "tags"]
    ensures v.fields[0].val == Str(g.name)
    ensures v.fields[1].val == g.location && v.fields[2].val == g.provisioningState
      && v.fields[3].val == g.tags
  {
    Obj([Field("name", Str(g.name)), Field("location", g.location),
         Field("provisioningState", g.provisioningState), Field("tags", g.tags)])
  }

  const GroupFailure := "Failed to query resource group: "

  predicate CountsResources(intent: string) {
    intent == "list_resources" || intent == "count_resources"
  }

  /** `queryResourceGroup(rgName, intent)`: a direct lookup of one group,
      with its resources enumerated for the listing and counting intents;
      an error while enumerating fails the whole lookup. */
  function QueryResourceGroup(ctx: Context, name: string, intent: string): (r: QueryResult)
    ensures GetGroup(ctx.directory, name).Failure? ==>
      r == Err(GroupFailure + GetGroup(ctx.directory, name).error.message)
    ensures GetGroup(ctx.directory, name).Success? && CountsResources(intent) ==>
      var g := GetGroup(ctx.directory, name).value;
      && (g.resources.failure.Some? ==> r == Err(GroupFailure + g.resources.failure.value.message))
      && (g.resources.failure.None? ==>
            r == Ok(GroupResourcesRecord(g, g.resources.items, intent == "list_resources"), None))
    ensures GetGroup(ctx.directory, name).Success? && !CountsResources(intent) ==>
      r == Ok(GroupRecord(GetGroup(ctx.directory, name).value), None)
  {
    match GetGroup(ctx.directory, name)
    case Failure(e) => Err(GroupFailure + e.message)
    case Success(g) =>
      if CountsResources(intent) then
        var listing := ListIn(ctx.directory, name, ResourcesOf);
        if listing.failure.Some? then Err(GroupFailure + listing.failure.value.message)
        else Ok(GroupResourcesRecord(g, listing.items, intent == "list_resources"), None)
      else Ok(GroupRecord(g), None)
  }

  // ---------------------------------------------------------------------
  // Cost placeholder and list-all
  // ---------------------------------------------------------------------

  const CostMessage := "Cost data retrieval requires additional configuration"
  const CostNote := "Please configure Cost Management API access and implement time-range queries"

  /** `getCostData(resourceName, parameters)`: a fixed placeholder. */
  function GetCostData(name: Option<string>, parameters: map<string, string>): (r: QueryResult)
    ensures r.Ok? && r.source.None? && r.data.Obj?
    ensures Keys(r.data.fields) == ["message", "note", "resourceName", "timePeriod"]
    ensures r.data.fields[2].val == OptStr(name)
    ensures Present(Param(parameters, "timePeriod")) ==> r.data.fields[3].val == Str(parameters["timePeriod"])
    ensures !Present(Param(parameters, "timePeriod")) ==> r.data.fields[3].val == Str("not specified")
  {
    var period := Param(parameters, "timePeriod");
    Ok(Obj([Field("message", Str(CostMessage)), Field("note", Str(CostNote)),
            Field("resourceName", OptStr(name)),
            Field("timePeriod", Str(if Present(period) then period.value else "not specified"))]), None)
  }

  /** A resource `listAllResources` reports, with the group it was listed in. */
  datatype Listed = Listed(group: string, resource: Resource)

  /** The type filter of `listAllResources`. */
  predicate TypeMatches(resourceType: string, listedType: string) {
    resourceType == "generic" || Contains(Lower(listedType), Lower(resourceType))
  }

  /** The resources of one group that pass the type filter, in listing order. */
  function Matching(items: seq<Resource>, rg: string, resourceType: string): (found: seq<Listed>)
    ensures |found| <= |items|
    ensures forall x :: x in found <==>
      x.group == rg && x.resource in items && TypeMatches(resourceType, x.resource.resourceType)
    decreases |items|
  {
    if |items| == 0 then []
    else
      var rest := Matching(items[1..], rg, resourceType);
      assert forall r :: r in items <==> r == items[0] || r in items[1..];
      if TypeMatches(resourceType, items[0].resourceType) then [Listed(rg, items[0])] + rest else rest
  }

  /** Every delivered resource of every group that passes the type filter;
      a group whose listing fails keeps what it delivered before failing. */
  function Collect(dir: Directory, groups: seq<string>, resourceType: string): (found: seq<Listed>)
    ensures forall x :: x in found <==>
      exists i :: 0 <= i < |groups| && x.group == groups[i]
        && x.resource in ListIn(dir, groups[i], ResourcesOf).items
        && TypeMatches(resourceType, x.resource.resourceType)
    decreases |groups|
  {
    if |groups| == 0 then []
    else
      var here := Matching(ListIn(dir, groups[0], ResourcesOf).items, groups[0], resourceType);
      var rest := Collect(dir, groups[1..], resourceType);
      assert forall i :: 1 <= i < |groups| ==> groups[i] == groups[1..][i - 1];
      here + rest
  }

  function ListedValue(x: Listed): Value {
    ShapeResource(x.group, x.resource)
  }

  /** The record `listAllResources` answers with. */
  function ListAllRecord(resourceType: string, found: seq<Listed>): (v: Value)
    ensures v.Obj? && Keys(v.fields) == ["resourceType", "count", "resources"]
    ensures v.fields[0].val == Str(if resourceType == "generic" then "all resources" else resourceType)
    ensures v.fields[1].val == Num(|found|)
    ensures v.fields[2].val.Arr? && |v.fields[2].val.items| == |found|
    ensures forall i :: 0 <= i < |found| ==> v.fields[2].val.items[i] == ListedValue(found[i])
  {
    var resources := seq(|found|, i requires 0 <= i < |found| => ListedValue(found[i]));
    Obj([Field("resourceType", Str(if resourceType == "generic" then "all resources" else resourceType)),
         Field("count", Num(|resources|)),
         Field("resources", Arr(resources))])
  }

  /** `listAllResources(resourceType, parameters)` */
  function ListAllResources(ctx: Context, resourceType: string, parameters: map<string, string>): (r: QueryResult)
    ensures ResolveGroups(ctx, Param(parameters, "resourceGroup")).Failure? ==>
      r == Err("Failed to list " + resourceType + " resources: "
               + ResolveGroups(ctx, Param(parameters, "resourceGroup")).error.message)
    ensures ResolveGroups(ctx, Param(parameters, "resourceGroup")).Success? ==>
      r == Ok(ListAllRecord(resourceType, Collect(ctx.directory, ResolveGroups(ctx, Param(parameters, "resourceGroup")).value,
                                                  resourceType)), Some(DefaultSource))
    ensures r.Ok? ==>
      && r.source == Some(DefaultSource)
      && r.data.Obj? && |r.data.fields| == 3
      && r.data.fields[2].val.Arr?
      && r.data.fields[1].val == Num(|r.data.fields[2].val.items|)
  {
    match ResolveGroups(ctx, Param(parameters, "resourceGroup"))
    case Failure(e) => Err("Failed to list " + resourceType + " resources: " + e.message)
    case Success(groups) =>
      Ok(ListAllRecord(resourceType, Collect(ctx.directory, groups, resourceType)), Some(DefaultSource))
  }

  /** `Matching` keeps the listing order and every occurrence: it
      distributes over concatenation ... */
  lemma {:induction false} MatchingAppend(a: seq<Resource>, b: seq<Resource>, rg: string, resourceType: string)
    ensures Matching(a + b, rg, resourceType) == Matching(a, rg, resourceType) + Matching(b, rg, resourceType)
    decreases |a|
  {
    if |a| == 0 {
      assert a + b == b;
    } else {
      assert (a + b)[0] == a[0];
      assert (a + b)[1..] == a[1..] + b;
      MatchingAppend(a[1..], b, rg, resourceType);
    }
  }

  /** ... and keeps a single resource exactly when it passes the filter. */
  lemma MatchingOne(x: Resource, rg: string, resourceType: string)
    ensures Matching([x], rg, resourceType)
      == if TypeMatches(resourceType, x.resourceType) then [Listed(rg, x)] else []
  {
    assert [x][1..] == [];
  }

  // ---------------------------------------------------------------------
  // Dispatch
  // ---------------------------------------------------------------------

  /** The handler `executeAzureQuery` hands an analysis to. */
  datatype Handler =
    | ListAllHandler
    | CostHandler
    | VirtualMachineHandler
    | DatabaseHandler
    | VirtualNetworkHandler
    | SubnetHandler
    | StorageAccountHandler
    | ResourceGroupHandler
    | GenericHandler

  /** The resource types with a handler of their own, in `switch` order. */
  const DedicatedTypes: seq<string> :=
    ["virtualMachine", "database", "virtualNetwork", "subnet", "storageAccount", "resourceGroup"]

  /** The `switch` on the resource type. */
  function TypeHandler(resourceType: string): (h: Handler)
    ensures h.VirtualMachineHandler? <==> resourceType == "virtualMachine"
    ensures h.DatabaseHandler? <==> resourceType == "database"
    ensures h.VirtualNetworkHandler? <==> resourceType == "virtualNetwork"
    ensures h.SubnetHandler? <==> resourceType == "subnet"
    ensures h.StorageAccountHandler? <==> resourceType == "storageAccount"
    ensures h.ResourceGroupHandler? <==> resourceType == "resourceGroup"
    ensures h.GenericHandler? <==> resourceType !in DedicatedTypes
  {
    if resourceType == "virtualMachine" then VirtualMachineHandler
    else if resourceType == "database" then DatabaseHandler
    else if resourceType == "virtualNetwork" then VirtualNetworkHandler
    else if resourceType == "subnet" then SubnetHandler
    else if resourceType == "storageAccount" then StorageAccountHandler
    else if resourceType == "resourceGroup" then ResourceGroupHandler
    else GenericHandler
  }

  /** List-all wins over the cost placeholder, which wins over the type. */
  function Route(a: Analysis): (h: Handler)
    ensures h.ListAllHandler? <==> a.intent == "list_all" && a.resourceName == Some("all")
    ensures h.CostHandler? <==> !h.ListAllHandler? && a.intent == "get_cost"
    ensures !h.ListAllHandler? && !h.CostHandler? ==> h == TypeHandler(a.resourceType)
  {
    if a.intent == "list_all" && a.resourceName == Some("all") then ListAllHandler
    else if a.intent == "get_cost" then CostHandler
    else TypeHandler(a.resourceType)
  }

  /** Runs one of the handlers that look a resource up by type; none of
      them names a source. */
  function RunTypeHandler(ctx: Context, a: Analysis, h: Handler): (r: QueryResult)
    requires WellFormed(a)
    requires !h.ListAllHandler? && !h.CostHandler?
    ensures r.Ok? ==> r.source.None?
  {
    var name := a.resourceName.GetOr("");
    match h
    case VirtualMachineHandler => QueryVirtualMachine(ctx, name, a.intent, a.parameters)
    case DatabaseHandler => QueryDatabase(ctx, name, a.parameters)
    case VirtualNetworkHandler => QueryVirtualNetwork(ctx, name, a.intent, a.parameters)
    case SubnetHandler => QuerySubnet(ctx, name, a.parameters)
    case StorageAccountHandler => QueryStorageAccount(ctx, name, a.parameters)
    case ResourceGroupHandler => QueryResourceGroup(ctx, name, a.intent)
    case GenericHandler => QueryGenericResource(ctx, a.resourceName, a.parameters)
  }

  /** Runs the handler `h` on the analysis: only the list-all handler names
      a source, and the cost placeholder always answers. */
  function RunHandler(ctx: Context, a: Analysis, h: Handler): (r: QueryResult)
    requires WellFormed(a)
    ensures r.Ok? && h.ListAllHandler? ==> r.source == Some(DefaultSource)
    ensures r.Ok? && !h.ListAllHandler? ==> r.source.None?
    ensures h.CostHandler? ==> r.Ok?
  {
    match h
    case ListAllHandler => ListAllResources(ctx, a.resourceType, a.parameters)
    case CostHandler => GetCostData(a.resourceName, a.parameters)
    case _ => RunTypeHandler(ctx, a, h)
  }

  /** `executeAzureQuery(analysis)`: list-all first, then the cost
      placeholder, then the handler for the resource type. */
  function ExecuteAzureQuery(ctx: Context, a: Analysis): (r: QueryResult)
    requires WellFormed(a)
    ensures Route(a).ListAllHandler? ==> r == ListAllResources(ctx, a.resourceType, a.parameters)
    ensures Route(a).CostHandler? ==> r == GetCostData(a.resourceName, a.parameters)
  {
    RunHandler(ctx, a, Route(a))
  }
}

=== FILE: resource_client_props.dfy ===
/** What the resource handlers answer, stated group by group: the first
    group holding the sought resource decides the answer, an error a handler
    does not tolerate ends the search, and a name held nowhere gives the
    handler's not-found message. */
module ResourceClientProperties {
  import opened Wrappers
  import opened Json
  import opened Search
  import opened Cloud
  import opened Intents
  import opened ResourceClient

  /** The groups a handler searches when resolution succeeds. */
  function Searched(ctx: Context, parameters: map<string, string>): seq<string>
    requires ResolveGroups(ctx, Param(parameters, "resourceGroup")).Success?
  {
    ResolveGroups(ctx, Param(parameters, "resourceGroup")).value
  }

  // ---------------------------------------------------------------------
  // The shared search
  // ---------------------------------------------------------------------

  /** The first group that holds the entity, after groups that do not, is
      where the handler answers from. */
  lemma LocateHit<T>(ctx: Context, explicit: Option<string>, step: string -> Step<T, Error>,
                     shape: (string, T) -> Value, failure: string, notFound: string, i: nat)
    requires ResolveGroups(ctx, explicit).Success?
    requires i < |ResolveGroups(ctx, explicit).value|
    requires step(ResolveGroups(ctx, explicit).value[i]).Take?
    requires forall j :: 0 <= j < i ==> step(ResolveGroups(ctx, explicit).value[j]).Skip?
    ensures var g := ResolveGroups(ctx, explicit).value[i];
      Locate(ctx, explicit, step, shape, failure, notFound) == Ok(shape(g, step(g).item), None)
  {
    ScanTakes(ResolveGroups(ctx, explicit).value, step, i);
  }

  /** An error rethrown in a group reached before any hit fails the handler. */
  lemma LocateAbort<T>(ctx: Context, explicit: Option<string>, step: string -> Step<T, Error>,
                       shape: (string, T) -> Value, failure: string, notFound: string, i: nat)
    requires ResolveGroups(ctx, explicit).Success?
    requires i < |ResolveGroups(ctx, explicit).value|
    requires step(ResolveGroups(ctx, explicit).value[i]).Stop?
    requires forall j :: 0 <= j < i ==> step(ResolveGroups(ctx, explicit).value[j]).Skip?
    ensures var g := ResolveGroups(ctx, explicit).value[i];
      Locate(ctx, explicit, step, shape, failure, notFound) == Err(failure + step(g).error.message)
  {
    ScanStops(ResolveGroups(ctx, explicit).value, step, i);
  }

  /** When no group holds the entity the handler answers not-found. */
  lemma LocateMiss<T>(ctx: Context, explicit: Option<string>, step: string -> Step<T, Error>,
                      shape: (string, T) -> Value, failure: string, notFound: string)
    requires ResolveGroups(ctx, explicit).Success?
    requires forall j :: 0 <= j < |ResolveGroups(ctx, explicit).value| ==>
      step(ResolveGroups(ctx, explicit).value[j]).Skip?
    ensures Locate(ctx, explicit, step, shape, failure, notFound) == Err(notFound)
  {
    ScanSkipsAll(ResolveGroups(ctx, explicit).value, step);
  }

  /** A handler whose groups are never fatal answers with a record or with
      its not-found message once the groups are resolved. */
  lemma LocateNeverFails<T>(ctx: Context, explicit: Option<string>, step: string -> Step<T, Error>,
                            shape: (string, T) -> Value, failure: string, notFound: string)
    requires ResolveGroups(ctx, explicit).Success?
    requires forall g :: !step(g).Stop?
    ensures var r := Locate(ctx, explicit, step, shape, failure, notFound);
      r.Ok? || r == Err(notFound)
  {
    ScanNeverAborts(ResolveGroups(ctx, explicit).value, step);
  }

  // ---------------------------------------------------------------------
  // Virtual machines
  // ---------------------------------------------------------------------

  /** A `get` that answers 404. */
  predicate Missing<T>(r: Result<T, Error>) {
    r.Failure? && IsNotFound(r.error)
  }

  lemma VirtualMachineFirstMatch(ctx: Context, name: string, intent: string,
                                 parameters: map<string, string>, i: nat)
    requires ResolveGroups(ctx, Param(parameters, "resourceGroup")).Success?
    requires i < |Searched(ctx, parameters)|
    requires GetVirtualMachine(ctx.directory, Searched(ctx, parameters)[i], name).Success?
    requires forall j :: 0 <= j < i ==>
      Missing(GetVirtualMachine(ctx.directory, Searched(ctx, parameters)[j], name))
    ensures var rg := Searched(ctx, parameters)[i];
      QueryVirtualMachine(ctx, name, intent, parameters)
        == Ok(ShapeVirtualMachine(intent, rg, GetVirtualMachine(ctx.directory, rg, name).value), None)
  {
    LocateHit(ctx, Param(parameters, "resourceGroup"), VirtualMachineStep(ctx.directory, name),
              VirtualMachineShape(intent), "Failed to query VM: ", VirtualMachineMissing(name), i);
  }

  lemma VirtualMachineAbort(ctx: Context, name: string, intent: string,
                            parameters: map<string, string>, i: nat)
    requires ResolveGroups(ctx, Param(parameters, "resourceGroup")).Success?
    requires i < |Searched(ctx, parameters)|
    requires GetVirtualMachine(ctx.directory, Searched(ctx, parameters)[i], name).Failure?
    requires !IsNotFound(GetVirtualMachine(ctx.directory, Searched(ctx, parameters)[i], name).error)
    requires forall j :: 0 <= j < i ==>
      Missing(GetVirtualMachine(ctx.directory, Searched(ctx, parameters)[j], name))
    ensures QueryVirtualMachine(ctx, name, intent, parameters) == Err("Failed to query VM: "
      + GetVirtualMachine(ctx.directory, Searched(ctx, parameters)[i], name).error.message)
  {
    LocateAbort(ctx, Param(parameters, "resourceGroup"), VirtualMachineStep(ctx.directory, name),
                VirtualMachineShape(intent), "Failed to query VM: ", VirtualMachineMissing(name), i);
  }

  lemma VirtualMachineNotFound(ctx: Context, name: string, intent: string, parameters: map<string, string>)
    requires ResolveGroups(ctx, Param(parameters, "resourceGroup")).Success?
    requires forall j :: 0 <= j < |Searched(ctx, parameters)| ==>
      Missing(GetVirtualMachine(ctx.directory, Searched(ctx, parameters)[j], name))
    ensures QueryVirtualMachine(ctx, name, intent, parameters) == Err(VirtualMachineMissing(name))
  {
    var groups := Searched(ctx, parameters);
    var step := VirtualMachineStep(ctx.directory, name);
    forall j | 0 <= j < |groups|
      ensures step(groups[j]).Skip?
    {
      assert Missing(GetVirtualMachine(ctx.directory, groups[j], name));
    }
    LocateMiss(ctx, Param(parameters, "resourceGroup"), VirtualMachineStep(ctx.directory, name),
               VirtualMachineShape(intent), "Failed to query VM: ", VirtualMachineMissing(name));
  }

  // ---------------------------------------------------------------------
  // Virtual networks and storage accounts
  // ---------------------------------------------------------------------

  lemma VirtualNetworkFirstMatch(ctx: Context, name: string, intent: string,
                                 parameters: map<string, string>, i: nat)
    requires ResolveGroups(ctx, Param(parameters, "resourceGroup")).Success?
    requires i < |Searched(ctx, parameters)|
    requires GetVirtualNetwork(ctx.directory, Searched(ctx, parameters)[i], name).Success?
    requires forall j :: 0 <= j < i ==>
      Missing(GetVirtualNetwork(ctx.directory, Searched(ctx, parameters)[j], name))
    ensures var rg := Searched(ctx, parameters)[i];
      QueryVirtualNetwork(ctx, name, intent, parameters)
        == Ok(ShapeVirtualNetwork(intent, name, rg, GetVirtualNetwork(ctx.directory, rg, name).value), None)
  {
    LocateHit(ctx, Param(parameters, "resourceGroup"), VirtualNetworkStep(ctx.directory, name),
              VirtualNetworkShape(intent, name), "Failed to query VNet: ", VirtualNetworkMissing(name), i);
  }

  lemma VirtualNetworkAbort(ctx: Context, name: string, intent: string,
                            parameters: map<string, string>, i: nat)
    requires ResolveGroups(ctx, Param(parameters, "resourceGroup")).Success?
    requires i < |Searched(ctx, parameters)|
    requires GetVirtualNetwork(ctx.directory, Searched(ctx, parameters)[i], name).Failure?
    requires !IsNotFound(GetVirtualNetwork(ctx.directory, Searched(ctx, parameters)[i], name).error)
    requires forall j :: 0 <= j < i ==>
      Missing(GetVirtualNetwork(ctx.directory, Searched(ctx, parameters)[j], name))
    ensures QueryVirtualNetwork(ctx, name, intent, parameters) == Err("Failed to query VNet: "
      + GetVirtualNetwork(ctx.directory, Searched(ctx, parameters)[i], name).error.message)
  {
    LocateAbort(ctx, Param(parameters, "resourceGroup"), VirtualNetworkStep(ctx.directory, name),
                VirtualNetworkShape(intent, name), "Failed to query VNet: ", VirtualNetworkMissing(name), i);
  }

  lemma VirtualNetworkNotFound(ctx: Context, name: string, intent: string, parameters: map<string, string>)
    requires ResolveGroups(ctx, Param(parameters, "resourceGroup")).Success?
    requires forall j :: 0 <= j < |Searched(ctx, parameters)| ==>
      Missing(GetVirtualNetwork(ctx.directory, Searched(ctx, parameters)[j], name))
    ensures QueryVirtualNetwork(ctx, name, intent, parameters) == Err(VirtualNetworkMissing(name))
  {
    var groups := Searched(ctx, parameters);
    var step := VirtualNetworkStep(ctx.directory, name);
    forall j | 0 <= j < |groups|
      ensures step(groups[j]).Skip?
    {
      assert Missing(GetVirtualNetwork(ctx.directory, groups[j], name));
    }
    LocateMiss(ctx, Param(parameters, "resourceGroup"), VirtualNetworkStep(ctx.directory, name),
               VirtualNetworkShape(intent, name), "Failed to query VNet: ", VirtualNetworkMissing(name));
  }

  lemma StorageAccountFirstMatch(ctx: Context, name: string, parameters: map<string, string>, i: nat)
    requires ResolveGroups(ctx, Param(parameters, "resourceGroup")).Success?
    requires i < |Searched(ctx, parameters)|
    requires GetStorageAccount(ctx.directory, Searched(ctx, parameters)[i], name).Success?
    requires forall j :: 0 <= j < i ==>
      Missing(GetStorageAccount(ctx.directory, Searched(ctx, parameters)[j], name))
    ensures var rg := Searched(ctx, parameters)[i];
      QueryStorageAccount(ctx, name, parameters)
        == Ok(ShapeStorageAccount(rg, GetStorageAccount(ctx.directory, rg, name).value), None)
  {
    LocateHit(ctx, Param(parameters, "resourceGroup"), StorageAccountStep(ctx.directory, name),
              StorageAccountShape(), "Failed to query storage account: ", StorageAccountMissing(name), i);
  }

  lemma StorageAccountAbort(ctx: Context, name: string, parameters: map<string, string>, i: nat)
    requires ResolveGroups(ctx, Param(parameters, "resourceGroup")).Success?
    requires i < |Searched(ctx, parameters)|
    requires GetStorageAccount(ctx.directory, Searched(ctx, parameters)[i], name).Failure?
    requires !IsNotFound(GetStorageAccount(ctx.directory, Searched(ctx, parameters)[i], name).error)
    requires forall j :: 0 <= j < i ==>
      Missing(GetStorageAccount(ctx.directory, Searched(ctx, parameters)[j], name))
    ensures QueryStorageAccount(ctx, name, parameters) == Err("Failed to query storage account: "
      + GetStorageAccount(ctx.directory, Searched(ctx, parameters)[i], name).error.message)
  {
    LocateAbort(ctx, Param(parameters, "resourceGroup"), StorageAccountStep(ctx.directory, name),
                StorageAccountShape(), "Failed to query storage account: ", StorageAccountMissing(name), i);
  }

  lemma StorageAccountNotFound(ctx: Context, name: string, parameters: map<string, string>)
    requires ResolveGroups(ctx, Param(parameters, "resourceGroup")).Success?
    requires forall j :: 0 <= j < |Searched(ctx, parameters)| ==>
      Missing(GetStorageAccount(ctx.directory, Searched(ctx, parameters)[j], name))
    ensures QueryStorageAccount(ctx, name, parameters) == Err(StorageAccountMissing(name))
  {
    var groups := Searched(ctx, parameters);
    var step := StorageAccountStep(ctx.directory, name);
    forall j | 0 <= j < |groups|
      ensures step(groups[j]).Skip?
    {
      assert Missing(GetStorageAccount(ctx.directory, groups[j], name));
    }
    LocateMiss(ctx, Param(parameters, "resourceGroup"), StorageAccountStep(ctx.directory, name),
               StorageAccountShape(), "Failed to query storage account: ", StorageAccountMissing(name));
  }

  // ---------------------------------------------------------------------
  // Databases and subnets: listing errors are logged, never fatal
  // ---------------------------------------------------------------------

  /** The database a group yields, from the servers it lists. */
  function DatabaseIn(dir: Directory, rg: string, name: string): Option<(SqlServer, Database)> {
    FindDatabase(ListIn(dir, rg, SqlServersOf).items, name)
  }

  lemma DatabaseFirstMatch(ctx: Context, name: string, parameters: map<string, string>, i: nat)
    requires ResolveGroups(ctx, Param(parameters, "resourceGroup")).Success?
    requires i < |Searched(ctx, parameters)|
    requires DatabaseIn(ctx.directory, Searched(ctx, parameters)[i], name).Some?
    requires forall j :: 0 <= j < i ==> DatabaseIn(ctx.directory, Searched(ctx, parameters)[j], name).None?
    ensures var rg := Searched(ctx, parameters)[i];
      var hit := DatabaseIn(ctx.directory, rg, name).value;
      QueryDatabase(ctx, name, parameters) == Ok(ShapeDatabase(rg, hit.0, hit.1), None)
  {
    var groups := Searched(ctx, parameters);
    var step := DatabaseStep(ctx.directory, name);
    forall j | 0 <= j < i
      ensures step(groups[j]).Skip?
    {
      assert DatabaseIn(ctx.directory, groups[j], name).None?;
    }
    LocateHit(ctx, Param(parameters, "resourceGroup"), step,
              DatabaseShape(), "Failed to query database: ", DatabaseMissing(name), i);
  }

  lemma DatabaseNotFound(ctx: Context, name: string, parameters: map<string, string>)
    requires ResolveGroups(ctx, Param(parameters, "resourceGroup")).Success?
    requires forall j :: 0 <= j < |Searched(ctx, parameters)| ==>
      DatabaseIn(ctx.directory, Searched(ctx, parameters)[j], name).None?
    ensures QueryDatabase(ctx, name, parameters) == Err(DatabaseMissing(name))
  {
    var groups := Searched(ctx, parameters);
    var step := DatabaseStep(ctx.directory, name);
    forall j | 0 <= j < |groups|
      ensures step(groups[j]).Skip?
    {
      assert DatabaseIn(ctx.directory, groups[j], name).None?;
    }
    LocateMiss(ctx, Param(parameters, "resourceGroup"), step,
               DatabaseShape(), "Failed to query database: ", DatabaseMissing(name));
  }

  /** Once the groups are resolved, a database lookup answers with a record
      or with not-found: no server or group error reaches the caller. */
  lemma DatabaseNeverFails(ctx: Context, name: string, parameters: map<string, string>)
    requires ResolveGroups(ctx, Param(parameters, "resourceGroup")).Success?
    ensures var r := QueryDatabase(ctx, name, parameters);
      r.Ok? || r == Err(DatabaseMissing(name))
  {
    LocateNeverFails(ctx, Param(parameters, "resourceGroup"), DatabaseStep(ctx.directory, name),
                     DatabaseShape(), "Failed to query database: ", DatabaseMissing(name));
  }

  /** The network a group yields, from those it lists. */
  function NetworkIn(dir: Directory, rg: string, name: string): Option<VirtualNetwork> {
    FindNetwork(ListIn(dir, rg, VirtualNetworksOf).items, name)
  }

  lemma SubnetFirstMatch(ctx: Context, name: string, parameters: map<string, string>, i: nat)
    requires ResolveGroups(ctx, Param(parameters, "resourceGroup")).Success?
    requires i < |Searched(ctx, parameters)|
    requires NetworkIn(ctx.directory, Searched(ctx, parameters)[i], name).Some?
    requires forall j :: 0 <= j < i ==> NetworkIn(ctx.directory, Searched(ctx, parameters)[j], name).None?
    ensures var rg := Searched(ctx, parameters)[i];
      QuerySubnet(ctx, name, parameters) == Ok(ShapeSubnets(rg, NetworkIn(ctx.directory, rg, name).value), None)
  {
    var groups := Searched(ctx, parameters);
    var step := SubnetStep(ctx.directory, name);
    forall j | 0 <= j < i
      ensures step(groups[j]).Skip?
    {
      assert NetworkIn(ctx.directory, groups[j], name).None?;
    }
    LocateHit(ctx, Param(parameters, "resourceGroup"), step,
              SubnetShape(), "Failed to query subnets: ", SubnetMissing(name), i);
  }

  lemma SubnetNotFound(ctx: Context, name: string, parameters: map<string, string>)
    requires ResolveGroups(ctx, Param(parameters, "resourceGroup")).Success?
    requires forall j :: 0 <= j < |Searched(ctx, parameters)| ==>
      NetworkIn(ctx.directory, Searched(ctx, parameters)[j], name).None?
    ensures QuerySubnet(ctx, name, parameters) == Err(SubnetMissing(name))
  {
    var groups := Searched(ctx, parameters);
    var step := SubnetStep(ctx.directory, name);
    forall j | 0 <= j < |groups|
      ensures step(groups[j]).Skip?
    {
      assert NetworkIn(ctx.directory, groups[j], name).None?;
    }
    LocateMiss(ctx, Param(parameters, "resourceGroup"), step,
               SubnetShape(), "Failed to query subnets: ", SubnetMissing(name));
  }

  lemma SubnetNeverFails(ctx: Context, name: string, parameters: map<string, string>)
    requires ResolveGroups(ctx, Param(parameters, "resourceGroup")).Success?
    ensures var r := QuerySubnet(ctx, name, parameters);
      r.Ok? || r == Err(SubnetMissing(name))
  {
    LocateNeverFails(ctx, Param(parameters, "resourceGroup"), SubnetStep(ctx.directory, name),
                     SubnetShape(), "Failed to query subnets: ", SubnetMissing(name));
  }

  // ---------------------------------------------------------------------
  // Any other resource type
  // ---------------------------------------------------------------------

  function ResourcesIn(dir: Directory, rg: string): Listing<Resource> {
    ListIn(dir, rg, ResourcesOf)
  }

  /** The group lists no resource of that name and its listing completed. */
  predicate CleanMiss(dir: Directory, rg: string, name: string) {
    FindResource(ResourcesIn(dir, rg).items, name).None? && ResourcesIn(dir, rg).failure.None?
  }

  lemma GenericFirstMatch(ctx: Context, name: string, parameters: map<string, string>, i: nat)
    requires ResolveGroups(ctx, Param(parameters, "resourceGroup")).Success?
    requires i < |Searched(ctx, parameters)|
    requires FindResource(ResourcesIn(ctx.directory, Searched(ctx, parameters)[i]).items, name).Some?
    requires forall j :: 0 <= j < i ==> CleanMiss(ctx.directory, Searched(ctx, parameters)[j], name)
    ensures var rg := Searched(ctx, parameters)[i];
      var hit := FindResource(ResourcesIn(ctx.directory, rg).items, name).value;
      QueryGenericResource(ctx, Some(name), parameters) == Ok(ShapeResource(rg, hit), None)
  {
    var groups := Searched(ctx, parameters);
    var step := GenericStep(ctx.directory, Some(name));
    forall j | 0 <= j < i
      ensures step(groups[j]).Skip?
    {
      assert CleanMiss(ctx.directory, groups[j], name);
    }
    LocateHit(ctx, Param(parameters, "resourceGroup"), step,
              ResourceShape(), "Failed to query resource: ", ResourceMissing(Some(name)), i);
  }

  /** A listing that fails in a group searched before any hit fails the
      whole lookup, even when a later group holds the resource. */
  lemma GenericAbort(ctx: Context, name: string, parameters: map<string, string>, i: nat)
    requires ResolveGroups(ctx, Param(parameters, "resourceGroup")).Success?
    requires i < |Searched(ctx, parameters)|
    requires FindResource(ResourcesIn(ctx.directory, Searched(ctx, parameters)[i]).items, name).None?
    requires ResourcesIn(ctx.directory, Searched(ctx, parameters)[i]).failure.Some?
    requires forall j :: 0 <= j < i ==> CleanMiss(ctx.directory, Searched(ctx, parameters)[j], name)
    ensures QueryGenericResource(ctx, Some(name), parameters) == Err("Failed to query resource: "
      + ResourcesIn(ctx.directory, Searched(ctx, parameters)[i]).failure.value.message)
  {
    var groups := Searched(ctx, parameters);
    var step := GenericStep(ctx.directory, Some(name));
    forall j | 0 <= j < i
      ensures step(groups[j]).Skip?
    {
      assert CleanMiss(ctx.directory, groups[j], name);
    }
    LocateAbort(ctx, Param(parameters, "resourceGroup"), step,
                ResourceShape(), "Failed to query resource: ", ResourceMissing(Some(name)), i);
  }

  lemma GenericNotFound(ctx: Context, name: string, parameters: map<string, string>)
    requires ResolveGroups(ctx, Param(parameters, "resourceGroup")).Success?
    requires forall j :: 0 <= j < |Searched(ctx, parameters)| ==>
      CleanMiss(ctx.directory, Searched(ctx, parameters)[j], name)
    ensures QueryGenericResource(ctx, Some(name), parameters) == Err(ResourceMissing(Some(name)))
  {
    var groups := Searched(ctx, parameters);
    var step := GenericStep(ctx.directory, Some(name));
    forall j | 0 <= j < |groups|
      ensures step(groups[j]).Skip?
    {
      assert CleanMiss(ctx.directory, groups[j], name);
    }
    LocateMiss(ctx, Param(parameters, "resourceGroup"), step,
               ResourceShape(), "Failed to query resource: ", ResourceMissing(Some(name)));
  }

  /** Without a resource name, the first group that lists anything fails the
      lookup with the TypeError of `undefined.toLowerCase()`. */
  lemma GenericWithoutName(ctx: Context, parameters: map<string, string>, i: nat)
    requires ResolveGroups(ctx, Param(parameters, "resourceGroup")).Success?
    requires i < |Searched(ctx, parameters)|
    requires |ResourcesIn(ctx.directory, Searched(ctx, parameters)[i]).items| > 0
    requires forall j :: 0 <= j < i ==> ResourcesIn(ctx.directory, Searched(ctx, parameters)[j]) == Listing([], None)
    ensures QueryGenericResource(ctx, None, parameters)
      == Err("Failed to query resource: " + UndefinedNameError.message)
  {
    var groups := Searched(ctx, parameters);
    var step := GenericStep(ctx.directory, None);
    forall j | 0 <= j < i
      ensures step(groups[j]).Skip?
    {
      assert ResourcesIn(ctx.directory, groups[j]) == Listing([], None);
    }
    LocateAbort(ctx, Param(parameters, "resourceGroup"), step,
                ResourceShape(), "Failed to query resource: ", ResourceMissing(None), i);
  }

  // ---------------------------------------------------------------------
  // List-all
  // ---------------------------------------------------------------------

  /** Groups are reported in the order they were searched. */
  lemma {:induction false} CollectAppend(dir: Directory, a: seq<string>, b: seq<string>, resourceType: string)
    ensures Collect(dir, a + b, resourceType) == Collect(dir, a, resourceType) + Collect(dir, b, resourceType)
    decreases |a|
  {
    if |a| > 0 {
      assert (a + b)[0] == a[0];
      assert (a + b)[1..] == a[1..] + b;
      CollectAppend(dir, a[1..], b, resourceType);
    } else {
      assert a + b == b;
    }
  }

  /** The `generic` type keeps every delivered resource, in listing order. */
  lemma {:induction false} MatchingGenericKeepsAll(items: seq<Resource>, rg: string)
    ensures |Matching(items, rg, "generic")| == |items|
    ensures forall k :: 0 <= k < |items| ==> Matching(items, rg, "generic")[k] == Listed(rg, items[k])
    decreases |items|
  {
    if |items| > 0 {
      MatchingGenericKeepsAll(items[1..], rg);
      assert TypeMatches("generic", items[0].resourceType);
    }
  }

  /** With an explicit group, list-all reports that group's matching
      resources in listing order. */
  lemma ListAllOneGroup(ctx: Context, resourceType: string, parameters: map<string, string>)
    requires Present(Param(parameters, "resourceGroup"))
    ensures var rg := parameters["resourceGroup"];
      ListAllResources(ctx, resourceType, parameters)
        == Ok(ListAllRecord(resourceType, Matching(ListIn(ctx.directory, rg, ResourcesOf).items, rg, resourceType)),
              Some(DefaultSource))
  {
    var rg := parameters["resourceGroup"];
    var here := Matching(ListIn(ctx.directory, rg, ResourcesOf).items, rg, resourceType);
    assert ResolveGroups(ctx, Param(parameters, "resourceGroup")) == Success([rg]);
    assert [rg][1..] == [];
    assert Collect(ctx.directory, [rg], resourceType) == here + Collect(ctx.directory, [], resourceType);
    assert here + [] == here;
  }

  // ---------------------------------------------------------------------
  // Dispatch
  // ---------------------------------------------------------------------

  /** An analysis that is neither list-all nor a cost question goes to the
      handler its resource type names. */
  predicate ByType(a: Analysis) {
    WellFormed(a) && !(a.intent == "list_all" && a.resourceName == Some("all")) && a.intent != "get_cost"
  }

  lemma ExecuteVirtualMachine(ctx: Context, a: Analysis)
    requires ByType(a) && a.resourceType == "virtualMachine"
    ensures ExecuteAzureQuery(ctx, a) == QueryVirtualMachine(ctx, a.resourceName.value, a.intent, a.parameters)
  {
    assert Route(a) == VirtualMachineHandler;
  }

  lemma ExecuteDatabase(ctx: Context, a: Analysis)
    requires ByType(a) && a.resourceType == "database"
    ensures ExecuteAzureQuery(ctx, a) == QueryDatabase(ctx, a.resourceName.value, a.parameters)
  {
    assert Route(a) == DatabaseHandler;
  }

  lemma ExecuteVirtualNetwork(ctx: Context, a: Analysis)
    requires ByType(a) && a.resourceType == "virtualNetwork"
    ensures ExecuteAzureQuery(ctx, a) == QueryVirtualNetwork(ctx, a.resourceName.value, a.intent, a.parameters)
  {
    assert Route(a) == VirtualNetworkHandler;
  }

  lemma ExecuteSubnet(ctx: Context, a: Analysis)
    requires ByType(a) && a.resourceType == "subnet"
    ensures ExecuteAzureQuery(ctx, a) == QuerySubnet(ctx, a.resourceName.value, a.parameters)
  {
    assert Route(a) == SubnetHandler;
  }

  lemma ExecuteStorageAccount(ctx: Context, a: Analysis)
    requires ByType(a) && a.resourceType == "storageAccount"
    ensures ExecuteAzureQuery(ctx, a) == QueryStorageAccount(ctx, a.resourceName.value, a.parameters)
  {
    assert Route(a) == StorageAccountHandler;
  }

  lemma ExecuteResourceGroup(ctx: Context, a: Analysis)
    requires ByType(a) && a.resourceType == "resourceGroup"
    ensures ExecuteAzureQuery(ctx, a) == QueryResourceGroup(ctx, a.resourceName.value, a.intent)
  {
    assert Route(a) == ResourceGroupHandler;
  }

  /** Every other resource type, `generic` included, goes to the generic lookup. */
  lemma ExecuteOtherType(ctx: Context, a: Analysis)
    requires ByType(a) && a.resourceType !in DedicatedTypes
    ensures ExecuteAzureQuery(ctx, a) == QueryGenericResource(ctx, a.resourceName, a.parameters)
  {
    assert Route(a) == GenericHandler;
  }
}

=== FILE: search.dfy ===
/** The two search shapes the resource handlers share: the first element of
    a sequence satisfying a test, and a scan over resource groups that stops
    at the first group yielding a result or raising an error it does not
    tolerate. */
module Search {

  /** Index of the first element satisfying `p`, or `|s|` when none does. */
  function FindFirst<T>(s: seq<T>, p: T -> bool): (k: nat)
    ensures k <= |s|
    ensures k < |s| ==> p(s[k])
    ensures forall j :: 0 <= j < k ==> !p(s[j])
    decreases |s|
  {
    if |s| == 0 then 0
    else if p(s[0]) then 0
    else 1 + FindFirst(s[1..], p)
  }

  /** Converse of `FindFirst`'s contract: an element satisfying `p` with
      none before it is the one found. */
  lemma FindFirstIsFirst<T>(s: seq<T>, p: T -> bool, i: nat)
    requires i < |s| && p(s[i])
    requires forall j :: 0 <= j < i ==> !p(s[j])
    ensures FindFirst(s, p) == i
  {
  }

  /** No element satisfies `p` exactly when the search runs off the end. */
  lemma FindFirstNone<T>(s: seq<T>, p: T -> bool)
    ensures FindFirst(s, p) == |s| <==> forall j :: 0 <= j < |s| ==> !p(s[j])
  {
  }

  /** What one resource group contributes to a scan. */
  datatype Step<+T, +E> =
    | Take(item: T)   // the group holds the sought entity
    | Skip            // not here (a not-found answer, or an error the handler logs and ignores)
    | Stop(error: E)  // an error the handler rethrows

  datatype Probe<+T, +E> =
    | Hit(index: nat, item: T)
    | Exhausted
    | Aborted(index: nat, error: E)

  /** The `for (const rg of resourceGroups)` loop: groups are tried in order,
      the first `Take` or `Stop` ends the loop. */
  function Scan<G, T, E>(groups: seq<G>, step: G -> Step<T, E>): (p: Probe<T, E>)
    ensures p.Hit? ==> p.index < |groups| && step(groups[p.index]) == Take(p.item)
    ensures p.Aborted? ==> p.index < |groups| && step(groups[p.index]) == Stop(p.error)
    ensures p.Hit? || p.Aborted? ==> forall j :: 0 <= j < p.index ==> step(groups[j]).Skip?
    ensures p.Exhausted? ==> forall j :: 0 <= j < |groups| ==> step(groups[j]).Skip?
    decreases |groups|
  {
    if |groups| == 0 then Exhausted
    else
      match step(groups[0])
      case Take(x) => Hit(0, x)
      case Stop(e) => Aborted(0, e)
      case Skip =>
        match Scan(groups[1..], step)
        case Hit(i, x) => Hit(i + 1, x)
        case Exhausted => Exhausted
        case Aborted(i, e) => Aborted(i + 1, e)
  }

  /** The group before which every group was skipped and which takes decides
      the scan. */
  lemma {:induction false} ScanTakes<G, T, E>(groups: seq<G>, step: G -> Step<T, E>, i: nat)
    requires i < |groups| && step(groups[i]).Take?
    requires forall j :: 0 <= j < i ==> step(groups[j]).Skip?
    ensures Scan(groups, step) == Hit(i, step(groups[i]).item)
    decreases i
  {
    if i > 0 {
      assert step(groups[0]).Skip?;
      ScanTakes(groups[1..], step, i - 1);
    }
  }

  /** The group before which every group was skipped and which stops
      decides the scan. */
  lemma {:induction false} ScanStops<G, T, E>(groups: seq<G>, step: G -> Step<T, E>, i: nat)
    requires i < |groups| && step(groups[i]).Stop?
    requires forall j :: 0 <= j < i ==> step(groups[j]).Skip?
    ensures Scan(groups, step) == Aborted(i, step(groups[i]).error)
    decreases i
  {
    if i > 0 {
      assert step(groups[0]).Skip?;
      ScanStops(groups[1..], step, i - 1);
    }
  }

  /** When every group is skipped the scan is exhausted. */
  lemma {:induction false} ScanSkipsAll<G, T, E>(groups: seq<G>, step: G -> Step<T, E>)
    requires forall j :: 0 <= j < |groups| ==> step(groups[j]).Skip?
    ensures Scan(groups, step) == Exhausted
    decreases |groups|
  {
    if |groups| > 0 {
      assert step(groups[0]).Skip?;
      ScanSkipsAll(groups[1..], step);
    }
  }

  /** A step that never stops gives a scan that never aborts. */
  lemma ScanNeverAborts<G, T, E>(groups: seq<G>, step: G -> Step<T, E>)
    requires forall g :: !step(g).Stop?
    ensures !Scan(groups, step).Aborted?
  {
  }
}

=== FILE: strings.dfy ===
/** The JavaScript string operations the backend relies on: `trim`,
    `toLowerCase`, `includes`, `split` and `join`, and decimal rendering of
    integers. */
module Strings {

  /** ECMAScript WhiteSpace and LineTerminator code points, the set
      `String.prototype.trim` removes. */
  predicate IsJsSpace(c: char) {
    || c == '\t' || c == '\n' || c == '\U{000B}' || c == '\U{000C}' || c == '\r'
    || c == ' ' || c == '\U{00A0}' || c == '\U{1680}'
    || ('\U{2000}' <= c <= '\U{200A}')
    || c == '\U{2028}' || c == '\U{2029}' || c == '\U{202F}' || c == '\U{205F}'
    || c == '\U{3000}' || c == '\U{FEFF}'
  }

  function TrimStart(s: string): (r: string)
    ensures |r| <= |s| && r == s[|s| - |r|..]
    ensures forall i :: 0 <= i < |s| - |r| ==> IsJsSpace(s[i])
    ensures |r| > 0 ==> !IsJsSpace(r[0])
    decreases |s|
  {
    if |s| > 0 && IsJsSpace(s[0]) then TrimStart(s[1..]) else s
  }

  function TrimEnd(s: string): (r: string)
    ensures |r| <= |s| && r == s[..|r|]
    ensures forall i :: |r| <= i < |s| ==> IsJsSpace(s[i])
    ensures |r| > 0 ==> !IsJsSpace(r[|r| - 1])
    decreases |s|
  {
    if |s| > 0 && IsJsSpace(s[|s| - 1]) then TrimEnd(s[..|s| - 1]) else s
  }

  /** `String.prototype.trim`: the slice of `s` that ends where `TrimEnd`
      stops, with white space before it and after it, and none at either of
      its own ends. */
  function Trim(s: string): (r: string)
    ensures |r| <= |TrimEnd(s)| <= |s|
    ensures r == s[|TrimEnd(s)| - |r|..|TrimEnd(s)|]
    ensures forall i :: 0 <= i < |TrimEnd(s)| - |r| ==> IsJsSpace(s[i])
    ensures forall i :: |TrimEnd(s)| <= i < |s| ==> IsJsSpace(s[i])
    ensures |r| > 0 ==> !IsJsSpace(r[0]) && !IsJsSpace(r[|r| - 1])
  {
    var e := TrimEnd(s);
    assert forall i :: 0 <= i < |e| ==> e[i] == s[i];
    TrimStart(e)
  }

  /** Trimming a trimmed string changes nothing. */
  lemma TrimIdempotent(s: string)
    ensures Trim(Trim(s)) == Trim(s)
  {
    var t := Trim(s);
    assert TrimEnd(t) == t;
    assert TrimStart(t) == t;
  }

  /** A string that neither starts nor ends with white space is its own trim. */
  lemma TrimKeeps(s: string)
    requires |s| > 0 && !IsJsSpace(s[0]) && !IsJsSpace(s[|s| - 1])
    ensures Trim(s) == s
  {
    assert TrimEnd(s) == s;
  }

  /** `trim` keeps a run of the original characters. */
  lemma TrimIsInfix(s: string)
    ensures forall c :: c in Trim(s) ==> c in s
  {
    var e := TrimEnd(s);
    assert forall c :: c in Trim(s) ==> c in e;
  }

  /** White space appended at the end disappears under `trim`. */
  lemma {:induction false} TrimDropsTrailingSpace(s: string, c: char)
    requires IsJsSpace(c)
    ensures Trim(s + [c]) == Trim(s)
  {
    assert (s + [c])[..|s + [c]| - 1] == s;
  }

  /** ASCII case folding; `toLowerCase` on the names the directory uses. */
  function LowerChar(c: char): char {
    if 'A' <= c <= 'Z' then (c as int + 32) as char else c
  }

  function Lower(s: string): (r: string)
    ensures |r| == |s|
    ensures forall i :: 0 <= i < |s| ==> r[i] == LowerChar(s[i])
  {
    seq(|s|, i requires 0 <= i < |s| => LowerChar(s[i]))
  }

  /** `a.toLowerCase() === b.toLowerCase()` */
  predicate SameIgnoringCase(a: string, b: string) {
    Lower(a) == Lower(b)
  }

  /** `s.includes(t)`: some suffix of `s` starts with `t`. */
  predicate Contains(s: string, t: string)
    decreases |s|
  {
    t <= s || (|s| > 0 && Contains(s[1..], t))
  }

  lemma {:induction false} ContainsAt(s: string, t: string, i: nat)
    requires i <= |s| && t <= s[i..]
    ensures Contains(s, t)
    decreases i
  {
    if i > 0 {
      assert s[1..][i - 1..] == s[i..];
      ContainsAt(s[1..], t, i - 1);
    }
  }

  /** Number of occurrences of the character `c` in `s`. */
  function Count(s: string, c: char): nat
    decreases |s|
  {
    if |s| == 0 then 0 else (if s[0] == c then 1 else 0) + Count(s[1..], c)
  }

  /** `parts.join(sep)` */
  function Join(parts: seq<string>, sep: string): string
    decreases |parts|
  {
    if |parts| == 0 then ""
    else if |parts| == 1 then parts[0]
    else parts[0] + sep + Join(parts[1..], sep)
  }

  /** `s.split(sep)`: cuts `s` at every occurrence of `sep`, scanning left to
      right. `SplitJoin` and `SplitPiecesClean` state what the pieces are. */
  function Split(s: string, sep: string): (parts: seq<string>)
    requires |sep| > 0
    ensures |parts| >= 1
    ensures parts[0] <= s
    decreases |s|
  {
    if sep <= s then [""] + Split(s[|sep|..], sep)
    else if |s| == 0 then [""]
    else
      var rest := Split(s[1..], sep);
      assert rest[0] <= s[1..];
      [[s[0]] + rest[0]] + rest[1..]
  }

  /** The pieces glue back, with the separator between them, to the input. */
  lemma {:induction false} SplitJoin(s: string, sep: string)
    requires |sep| > 0
    ensures Join(Split(s, sep), sep) == s
    decreases |s|
  {
    if sep <= s {
      SplitJoin(s[|sep|..], sep);
      JoinAfterEmpty(Split(s[|sep|..], sep), sep);
      assert s == sep + s[|sep|..];
    } else if |s| > 0 {
      SplitJoin(s[1..], sep);
      JoinConsChar(s[0], Split(s[1..], sep), sep);
      assert s == [s[0]] + s[1..];
    }
  }

  /** No piece holds the separator. */
  lemma {:induction false} SplitPiecesClean(s: string, sep: string)
    requires |sep| > 0
    ensures forall i :: 0 <= i < |Split(s, sep)| ==> !Contains(Split(s, sep)[i], sep)
    decreases |s|
  {
    var parts := Split(s, sep);
    if sep <= s {
      SplitPiecesClean(s[|sep|..], sep);
      assert parts == [""] + Split(s[|sep|..], sep);
    } else if |s| > 0 {
      var rest := Split(s[1..], sep);
      SplitPiecesClean(s[1..], sep);
      NoContainsCons(s, rest[0], sep);
      assert parts == [[s[0]] + rest[0]] + rest[1..];
      forall i | 0 <= i < |parts|
        ensures !Contains(parts[i], sep)
      {
        if i > 0 {
          assert parts[i] == rest[i];
        }
      }
    }
  }

  lemma JoinAfterEmpty(rest: seq<string>, sep: string)
    requires |rest| >= 1
    ensures Join([""] + rest, sep) == sep + Join(rest, sep)
  {
    assert ([""] + rest)[1..] == rest;
  }

  lemma JoinConsChar(c: char, rest: seq<string>, sep: string)
    requires |rest| >= 1
    ensures Join([[c] + rest[0]] + rest[1..], sep) == [c] + Join(rest, sep)
  {
    var parts := [[c] + rest[0]] + rest[1..];
    if |rest| > 1 {
      assert parts[1..] == rest[1..];
    }
  }

  /** Helper: a prefix of `s` that does not start with `sep`, extended by the
      first character of `s`, still does not hold `sep`. */
  lemma NoContainsCons(s: string, p: string, sep: string)
    requires |s| > 0 && p <= s[1..] && !(sep <= s) && !Contains(p, sep)
    ensures !Contains([s[0]] + p, sep)
    ensures [s[0]] + p <= s
  {
    var q := [s[0]] + p;
    assert q[1..] == p;
    assert q <= s;
  }

  /** Splitting at a one-character separator yields one piece more than
      there are separators. */
  lemma {:induction false} SplitCharCount(s: string, c: char)
    ensures |Split(s, [c])| == Count(s, c) + 1
    decreases |s|
  {
    if |s| > 0 {
      SplitCharCount(s[1..], c);
      if [c] <= s {
        assert s[|[c]|..] == s[1..];
      }
    }
  }

  /** A line without the separator, followed by the separator, is the first
      piece of the split. */
  lemma {:induction false} SplitAfterLine(a: string, c: char, b: string)
    requires c !in a
    ensures Split(a + [c] + b, [c]) == [a] + Split(b, [c])
    decreases |a|
  {
    var s := a + [c] + b;
    if |a| == 0 {
      assert [c] <= s;
      assert s[1..] == b;
    } else {
      assert s[0] == a[0] && a[0] != c;
      assert s[1..] == a[1..] + [c] + b;
      SplitAfterLine(a[1..], c, b);
      assert [a[0]] + a[1..] == a;
    }
  }

  function DigitChar(d: nat): (c: char)
    requires d < 10
    ensures '0' <= c <= '9'
  {
    ('0' as int + d) as char
  }

  function DigitValue(c: char): nat {
    if '0' <= c <= '9' then c as int - '0' as int else 0
  }

  /** The number a string of decimal digits denotes. */
  function DecimalValue(digits: string): nat
    decreases |digits|
  {
    if |digits| == 0 then 0
    else 10 * DecimalValue(digits[..|digits| - 1]) + DigitValue(digits[|digits| - 1])
  }

  /** Decimal rendering of a natural number, no leading zeros;
      `NatToStringValue` states that the digits denote `n`. */
  function NatToString(n: nat): (r: string)
    ensures |r| >= 1
    ensures forall i :: 0 <= i < |r| ==> '0' <= r[i] <= '9'
    ensures |r| > 1 ==> r[0] != '0'
    decreases n
  {
    if n < 10 then [DigitChar(n)] else NatToString(n / 10) + [DigitChar(n % 10)]
  }

  /** The rendering reads back as the number rendered. */
  lemma {:induction false} NatToStringValue(n: nat)
    ensures DecimalValue(NatToString(n)) == n
    decreases n
  {
    var r := NatToString(n);
    if n < 10 {
      assert r[..0] == [];
    } else {
      NatToStringValue(n / 10);
      assert r[..|r| - 1] == NatToString(n / 10);
    }
  }

  /** `String(n)` for an integer. */
  function IntToString(n: int): (r: string)
    ensures |r| >= 1
    ensures (r[0] == '-') <==> n < 0
  {
    if n < 0 then "-" + NatToString(-n) else NatToString(n)
  }

  /** A non-negative integer prints as its digits, a negative one as a minus
      sign followed by the digits of its magnitude. */
  lemma IntToStringValue(n: int)
    ensures n >= 0 ==> DecimalValue(IntToString(n)) == n
    ensures n < 0 ==> DecimalValue(IntToString(n)[1..]) == -n
  {
    if n < 0 {
      NatToStringValue(-n);
      assert IntToString(n)[1..] == NatToString(-n);
    } else {
      NatToStringValue(n);
    }
  }
}

=== FILE: wrappers.dfy ===
/** Optional values and success/failure results, used wherever the backend
    returns `undefined` or throws. */
module Wrappers {

  datatype Option<+T> = None | Some(value: T) {

    function GetOr(default: T): T {
      match this
      case Some(v) => v
      case None => default
    }
  }

  /** A computation that either produced a value or failed with an error. */
  datatype Result<+R, +E> = Success(value: R) | Failure(error: E) {

    /** Rewrites the error, leaving a success untouched (a `catch` that rethrows). */
    function MapFailure<E2>(wrap: E -> E2): (r: Result<R, E2>)
      ensures Success? <==> r.Success?
      ensures Success? ==> r.value == value
      ensures Failure? ==> r.error == wrap(error)
    {
      match this
      case Success(v) => Success(v)
      case Failure(e) => Failure(wrap(e))
    }
  }
}
